=== FILE: README.md ===
# Replenishment analytics — a Dafny model

This project models the computational core of the POWERGRID material-forecasting
dashboard, a Streamlit application. It covers four parts:

- **`inventory_data.py`.** The replenishment formula (safety stock and reorder point from a
  z-score) and the seeded generator of the twenty-SKU inventory (five SKUs for each of
  Steel, Cement, Conductors and Equipment). It also covers the per-material aggregation
  behind the dashboard (`groupby('Material')` with a sum of stock, the maximum reorder
  point and a summary status).
- **`pages/3_Inventory_Management.py`.** The page's own copy of the calculator, which also
  returns a rounded z-score. The page also has the economic order quantity, its own copy
  of the generator, the three search/filter widgets, the status icons and the
  critical/low-stock alert lists.
- **`app.py`.** The login check, the home page's status rule, the Smart Alerts lines, and
  the session state that decides when the critical-stock dialog pops up (login, logout,
  dismiss, and the "at most once" auto-dialog).
- **`pages/4_Procurement_Planning.py`.** Header sanitising, detection of the project-type
  and state columns, the label maps, the two "All"-or-equal filters, the budget estimate
  and the capped budget-utilisation percentage.

## Layout

| file | module | contents |
|---|---|---|
| `wrappers.dfy` | `Wrappers` | `Option`, `Result` and the Python exceptions that matter (`ValueError`, `OverflowError`, `ZeroDivisionError`, `IndexError`, `KeyError`, `TypeError`) |
| `floats.dfy` | `Floats` | IEEE-style values (finite real, ±inf, NaN), the operations the formula uses, `int()` truncation, `round(x, 2)` |
| `status.dfy` | `StockStatus` | the three statuses; the two orders of testing them (item rule and summary rule); their labels |
| `text.dfy` | `Text` | `strip`, `replace`, ASCII `lower`, substring tests, decimal formatting, lexicographic sort of distinct strings |
| `seqs.dfy` | `Seqs` | boolean-mask row selection (`df[mask]`), `head(n)` |
| `replenishment.dfy` | `Replenishment` | the formula shared by both calculator copies |
| `inventory_data.dfy` | `InventoryData` | the generator (functions plus the imperative loops proved equal to them) and the dashboard aggregation |
| `inventory_page.dfy` | `InventoryPage` | the Inventory Management page |
| `app.dfy` | `App` | credentials, the home page's alerts, and the `Session` class |
| `procurement.dfy` | `Procurement` | the Procurement Planning page |

## How the model represents the program

- **Numbers.** Python floats are modelled as exact reals wrapped in a `Float` datatype that also has `PosInf`, `NegInf` and `NaN`. `int(x)` truncates toward zero. It raises `ValueError` on NaN and `OverflowError` on an infinity.
- **Library results as inputs.** `norm.ppf(0.95)` and `np.sqrt(lead_time)` come from scipy and numpy, so they are inputs: the `Env` datatype carries the quantile and a root function. This lets every exception path of the calculator be reached.
- **Random numbers.** `np.random.seed(42)` followed by `randint`/`uniform` is modelled as a stream of fractions in [0, 1). `Env.draws` carries the stream, one position per call, in the order the loops make the calls. `randint(low, high)` maps a fraction into [low, high) and raises `ValueError` when the range is empty, as numpy does.
- **Data frames.** A data frame is a sequence of row datatypes. `df[mask]` is `Seqs.Filter`.
- **Loops.** The generator's nested loops are methods with loop invariants, proved equal to the recursive functions that specify them. The filter chains are methods proved equal to one selection by the combined condition. The session event loop is a method whose invariants keep the "opens automatically at most once" count.
- **Streamlit session state.** `st.session_state` is the `App.Session` class. Its fields are the keys the home page reads. A key not yet present is `None`.

## Model

| member | source | states |
|---|---|---|
| `Replenishment.Compute` | inventory_data.py:9-16 | both results are non-negative integers (the `max(..., 0)` clamp); otherwise the exception `int()` raises |
| `Replenishment.ComputeFinite` | inventory_data.py:10-15 | with a finite quantile and root, the result is the textbook formula z·σ·√L and d·L + z·σ·√L, clamped at zero and floored |
| `Replenishment.FailsOnlyOnNonFinite` | inventory_data.py:8-16 | only a NaN or infinite quantile or root makes the calculation raise |
| `Replenishment.NaNQuantileRaises` | inventory_data.py:9-15 | a NaN quantile (service level outside [0, 1]) always ends in `ValueError` |
| `Replenishment.ReorderCoversSafety` | inventory_data.py:10-15 | with non-negative lead-time demand, the reorder point is never below the safety stock |
| `Replenishment.SafetyMonotoneInStdDev` | inventory_data.py:10-14 | with z ≥ 0, more demand deviation never lowers the safety stock |
| `Replenishment.ReorderCoversLeadDemand` | inventory_data.py:11-15 | with non-negative inputs, the reorder point covers the floored lead-time demand |
| `Replenishment.SuccessMeansFiniteInputs` | inventory_data.py:10-15 | with a positive deviation and a quantile and root that are not negative (possibly infinite), a successful result means both were finite |
| `InventoryData.CalculateInventoryMetrics` | inventory_data.py:6-19 | the result is always non-negative; it is the fallback pair (100, 500) exactly when the formula raises, and the formula's result otherwise |
| `InventoryData.FallbackIsAlsoAGenuineResult` | inventory_data.py:17-19 | the fallback (100, 500) is also an ordinary result of the formula, so callers cannot tell that an exception happened |
| `InventoryData.RandInt` | inventory_data.py:32-34 | `randint(low, high)` gives a value in [low, high) and raises exactly when the range is empty |
| `InventoryData.Uniform` | inventory_data.py:92 | `uniform(low, high)` stays within [low, high] |
| `InventoryData.MaterialId` | inventory_data.py:85 | `f'M{i}{j:03d}'`: "M", the decimal digits of i, then j padded to three digits |
| `InventoryData.BiasedStock` | inventory_data.py:44-73 | the Cement or Equipment share of the reorder point, or a draw from [int(1.2 r), int(2.5 r)) with its `ValueError` on an empty range |
| `InventoryData.Sku` | inventory_data.py:32-96 | the row of one SKU from the stream: demand, lead time, metrics, stock, status, cost and supplier in the loop's order of draws, or the first exception |
| `InventoryData.StepWith` | inventory_data.py:32-96 | the loop body as a function of the position and the stream index |
| `InventoryData.RowsFrom` | inventory_data.py:30-96 | the rows from SKU j of material i to the end, in the nested loops' order, or the first exception |
| `InventoryData.Rows` | inventory_data.py:25-100 | all rows of the two nested loops from the start of the stream |
| `InventoryData.Inventory` | inventory_data.py:22-100 | the rows generated with either calculator copy |
| `InventoryData.FullInventory` | inventory_data.py:22-106 | what `load_full_inventory()` returns: the rows, or the empty frame after an exception |
| `InventoryData.MaterialIdsDistinct` | inventory_data.py:85 | `M{i}{j:03d}` identifiers of different positions differ |
| `InventoryData.StepIsSku` | inventory_data.py:31-96 | the loop body is the SKU function |
| `InventoryData.PrependStep` | inventory_data.py:84-96 | appending one SKU's row keeps the rows still to come |
| `InventoryData.PrependFailure` | inventory_data.py:102-106 | an exception in a SKU ends the loops with that exception |
| `InventoryData.PrependDone` | inventory_data.py:98-100 | after the last material the rows are complete |
| `InventoryData.NextMaterial` | inventory_data.py:30-31 | after the fifth SKU the outer loop moves to the next material |
| `InventoryData.RowsFromCons` | inventory_data.py:84-96 | a SKU that does not raise contributes its row ahead of the rows after it |
| `InventoryData.GenerateSku` | inventory_data.py:32-96 | the imperative body of the inner loop computes exactly the specified row and next stream position |
| `InventoryData.DrawStock` | inventory_data.py:44-73 | the imperative `current_stock` branch computes exactly the stock rule of the material and the next stream position, or the `ValueError` of an empty draw range |
| `InventoryData.GenerateMaterial` | inventory_data.py:31-96 | the inner loop over five SKUs appends one material's rows and leaves the stream at the next material, or ends with the first exception |
| `InventoryData.GenerateRows` | inventory_data.py:25-100 | the two nested loops produce exactly `Rows`: all twenty rows, or the first exception |
| `InventoryData.LoadFullInventory` | inventory_data.py:22-106 | `load_full_inventory()` returns the generated rows, or the empty frame after an exception |
| `InventoryData.CostBounds` | inventory_data.py:92 | the unit cost, rounded to two places, stays within [50, 500] |
| `InventoryData.SkuWellFormed` | inventory_data.py:32-96 | each generated row has the right material, identifier and demand/lead ranges, follows its material's stock rule, and carries the Critical-first status of its own stock |
| `InventoryData.SkuDrawnFields` | inventory_data.py:32-93 | demand in [20, 80), lead time in [15, 45), unit cost in [50, 500], and one of the five supplier names |
| `InventoryData.SkuDerivedFields` | inventory_data.py:32-96 | identifier and material of the position, metrics of the row's own demand and lead time, the material's stock rule, the Critical-first status, service level 95% |
| `InventoryData.BiasedStockRule` | inventory_data.py:44-73 | a drawn stock is the Cement or Equipment share of the reorder point, or lies in [int(1.2 r), int(2.5 r)) |
| `InventoryData.RowsFromShape` | inventory_data.py:30-96 | every row from a given SKU onward satisfies what the loop body guarantees for its position |
| `InventoryData.RowsShape` | inventory_data.py:25-96 | there are twenty rows, and SKU p % 5 of material p / 5 sits at position p |
| `InventoryData.MaterialIdsUnique` | inventory_data.py:85 | no two generated rows share a `Material_ID` |
| `InventoryData.EquipmentRowIsCritical` | inventory_data.py:58-81 | every Equipment SKU (at most 0.4 of its reorder point) is Critical |
| `InventoryData.CementRowIsBelowReorder` | inventory_data.py:45-81 | no Cement SKU is In Stock, and the first is Critical |
| `InventoryData.DrawnRowIsInStock` | inventory_data.py:71-81 | Steel and Conductors stocks are drawn at or above the reorder point, so they are In Stock |
| `InventoryData.StockNonNegative` | inventory_data.py:45-73 | no stock rule gives a negative stock from a non-negative reorder point |
| `InventoryData.SkuReorderAtLeast300` | inventory_data.py:32-42 | with non-negative inputs, every reorder point is at least 20·15 = 300 |
| `InventoryData.ComputedReorderAtLeast300` | inventory_data.py:10-15 | with demand ≥ 20, lead time ≥ 15 and non-negative quantile and root, a successful reorder point is at least 300 |
| `InventoryData.PolicyReorderAtLeast300` | inventory_data.py:32-42 | the same holds for both calculator copies over the whole demand and lead-time range |
| `InventoryData.PolicyNeverRaises` | inventory_data.py:8-19 | the falling-back copy never raises; the page's copy does not raise on finite, non-negative inputs |
| `InventoryData.StockRangeNonEmpty` | inventory_data.py:73 | a reorder point of at least 1 leaves a non-empty range for the Steel/Conductors draw |
| `InventoryData.SkuSucceeds` | inventory_data.py:32-96 | under those conditions no SKU raises |
| `InventoryData.RowsFromSucceed` | inventory_data.py:30-96 | a loop body that never raises generates every row |
| `InventoryData.RowsStatuses` | inventory_data.py:30-96 | the rows have reorder points of at least 300 and non-negative stock; Equipment rows are Critical, Cement rows are never In Stock, and Steel/Conductors rows are In Stock with stock ≥ reorder point |
| `InventoryData.GeneratedStatuses` | inventory_data.py:22-100 | the same holds for the inventory generated with either calculator copy |
| `InventoryData.RowsFromAgree` | inventory_data.py:30-96 | two loop bodies that agree wherever the first succeeds generate the same rows |
| `InventoryData.SkuAgree` | inventory_data.py:32-96 | metrics that agree give the same SKU row |
| `InventoryData.CopiesAgree` | inventory_data.py:6-19 | wherever the raising copy succeeds, the falling-back copy generates the same inventory |
| `InventoryData.CalcStatus` | inventory_data.py:128-134 | In Stock iff stock ≥ reorder; Critical iff stock is below both reorder and half of it; Low Stock otherwise; for a non-negative reorder point this is the item rule's status |
| `InventoryData.MaterialColumn` | inventory_data.py:119 | the `Material` column of the rows |
| `InventoryData.Members` | inventory_data.py:119 | the group of one material: its rows in frame order |
| `InventoryData.SumStock` | inventory_data.py:120 | the `'sum'` aggregate of `Current_Stock` |
| `InventoryData.Accumulate` | inventory_data.py:119-122 | one row added to its material's running sum and maximum |
| `InventoryData.GroupFold` | inventory_data.py:119-122 | `groupby('Material').agg(...)` before the keys are sorted |
| `InventoryData.MaxReorder` | inventory_data.py:121 | the maximum of a non-empty group is attained and bounds every member |
| `InventoryData.MembersCons` | inventory_data.py:119 | the group of a material after one more row |
| `InventoryData.SumMaxCons` | inventory_data.py:120-121 | the sum and the maximum after one more row |
| `InventoryData.SumStockSnoc` | inventory_data.py:120 | appending a row adds its stock to the group sum |
| `InventoryData.AccumulateOther` | inventory_data.py:119-122 | a row of another material leaves a group's aggregate alone |
| `InventoryData.AccumulateSame` | inventory_data.py:119-122 | a row of the same material adds its stock and raises the maximum |
| `InventoryData.GroupFoldIsSumAndMax` | inventory_data.py:119-122 | the fold over the rows gives each present material exactly the sum of its stocks and the maximum of its reorder points, and no absent material is present |
| `InventoryData.GroupsOfColumn` | inventory_data.py:119-122 | every material in the column has a non-empty group with that aggregate |
| `InventoryData.SummaryRowOf` | inventory_data.py:119-139 | one summary row aggregates its material's group |
| `InventoryData.KeysCoverItems` | inventory_data.py:119 | each row's material is a group key |
| `InventoryData.SummaryRows` | inventory_data.py:119-139 | one aggregated row per key, in the order of the keys |
| `InventoryData.Summarize` | inventory_data.py:119-139 | one row per distinct material, sorted by name; each row has the group's stock sum, maximum reorder point and the `calc_status` of those two; every input row's material appears; empty input gives an empty summary |
| `InventoryData.SingleKey` | inventory_data.py:119 | rows of one material give one key |
| `InventoryData.SingleMaterial` | inventory_data.py:119-139 | rows of one material give exactly one summary row with their total, maximum and status |
| `InventoryData.UniformAggregate` | inventory_data.py:119-134 | rows sharing one material and one reorder point give one summary row: their stock sum, that reorder point, and `calc_status` of the two |
| `InventoryData.GetDashboardSummary` | inventory_data.py:109-146 | `get_dashboard_summary()` returns the summary of `load_full_inventory()`, and the empty frame when that is empty |
| `InventoryData.AggregationExample` | inventory_data.py:119-134 | rows (30, 100) and (40, 120) of one material give (70, 120, Low Stock) |
| `InventoryData.GroupFoldIgnoresStatus` | inventory_data.py:119-122 | the aggregate reads only material, stock and reorder point |
| `InventoryData.SummaryIgnoresMemberStatus` | inventory_data.py:119-139 | the item statuses play no part in the summary |
| `InventoryData.SummaryRowsAgree` | inventory_data.py:119-139 | inventories that agree on material, stock and reorder point give the same summary rows |
| `InventoryData.CoveredMembersCoverMax` | inventory_data.py:120-121 | if every member's stock covers its reorder point, the sum covers the maximum |
| `InventoryData.CoveredGroupInStock` | inventory_data.py:119-134 | such a group is In Stock in the summary |
| `InventoryData.GeneratedSummaryInStock` | inventory_data.py:109-139 | on the generated inventory, Steel and Conductors are In Stock in the dashboard summary |
| `InventoryData.EquipmentStocksAt1000` | inventory_data.py:58-81 | at reorder point 1000 the five Equipment stocks are 200, 300, 350, 400, 250, each Critical |
| `InventoryData.EquipmentTotalCanBeInStock` | inventory_data.py:58-69 | five Critical Equipment SKUs can still sum to an In Stock summary row (1500 against a maximum of 1000) |
| `InventoryData.EquipmentSummaryAt1000` | inventory_data.py:119-134 | the five Equipment rows at reorder point 1000 summarise to (Equipment, 1500, 1000, In Stock) |
| `StockStatus.ClassifyCriticalFirst` | inventory_data.py:76-81 | the item rule: Critical iff stock < reorder/2; Low Stock iff reorder/2 ≤ stock < reorder; In Stock otherwise |
| `StockStatus.ClassifyInStockFirst` | inventory_data.py:128-134 | the summary rule: In Stock iff stock ≥ reorder; Critical iff stock is below both reorder and half of it; Low Stock otherwise |
| `StockStatus.OrderingsAgree` | app.py:101-107 | for a non-negative reorder point, both orders classify every stock alike |
| `StockStatus.OrderingsDisagreeBelowZero` | inventory_data.py:76-81 | at (−2, −2) the orders differ |
| `StockStatus.ReorderBoundaryIsInStock` | inventory_data.py:78-81 | stock equal to the reorder point is In Stock under both orders |
| `StockStatus.LabelsAreDistinct` | inventory_data.py:130-134 | each label names exactly one status |
| `InventoryPage.CalculatePageMetrics` | pages/3_Inventory_Management.py:17-27 | non-negative results and a z-score within 0.005 of the quantile; the exception propagates |
| `InventoryPage.CopiesOfTheCalculator` | pages/3_Inventory_Management.py:17-27 | the page copy agrees with the data copy where it succeeds; where it raises, the data copy returns the fallback |
| `InventoryPage.PageLoopUsesPageMetrics` | pages/3_Inventory_Management.py:52-57 | the page's loop uses the first two fields of the page calculator |
| `InventoryPage.IntSqrt` | pages/3_Inventory_Management.py:32-33 | the largest e with e·e ≤ n |
| `InventoryPage.FloorSqrt` | pages/3_Inventory_Management.py:32-33 | `int(sqrt(q))` for q ≥ 0 |
| `InventoryPage.CalculateEoq` | pages/3_Inventory_Management.py:29-33 | `ZeroDivisionError` iff the holding cost is zero; `ValueError` on a negative quotient; otherwise the floor of √(2·D·S/H) |
| `InventoryPage.EoqMonotoneInDemand` | pages/3_Inventory_Management.py:29-33 | more annual demand never lowers the EOQ |
| `InventoryPage.IntSqrtMonotone` | pages/3_Inventory_Management.py:32-33 | the integer root is monotone |
| `InventoryPage.LoadInventory` | pages/3_Inventory_Management.py:38-109 | the page's loops generate the inventory with the raising calculator, or raise |
| `InventoryPage.PageInventoryIsFullInventory` | pages/3_Inventory_Management.py:38-109 | when it succeeds it equals the dashboard generator's inventory |
| `InventoryPage.PageRowsConsistent` | pages/3_Inventory_Management.py:87-93 | every page row's status is the item rule applied to its own stock and non-negative reorder point |
| `InventoryPage.GetStatusIcon` | pages/3_Inventory_Management.py:155-161 | In Stock, Low Stock and Critical get the green, orange and red circles; anything else gets the white default, and only then |
| `InventoryPage.IconsIdentifyStatus` | pages/3_Inventory_Management.py:155-161 | item statuses get three different icons, none of them the default |
| `InventoryPage.MatchesSearch` | pages/3_Inventory_Management.py:141-142 | case-insensitive substring test of the search term in `Material_ID` |
| `InventoryPage.Selected` | pages/3_Inventory_Management.py:141-145 | a row passes the search (when a term is given), the material filter and the status filter |
| `InventoryPage.SelectionMask` | pages/3_Inventory_Management.py:141-145 | the combined condition as a mask |
| `InventoryPage.SearchMask` | pages/3_Inventory_Management.py:142 | the search step's mask |
| `InventoryPage.MaterialMask` | pages/3_Inventory_Management.py:144 | the material step's mask |
| `InventoryPage.StatusMask` | pages/3_Inventory_Management.py:145 | the status step's mask |
| `InventoryPage.ApplyFilters` | pages/3_Inventory_Management.py:139-145 | the three filter steps keep, in order, exactly the rows matching the search, the materials and the statuses |
| `InventoryPage.DefaultFiltersKeepEverything` | pages/3_Inventory_Management.py:122-136 | with the initial widget values nothing is filtered out |
| `InventoryPage.CriticalItems` | pages/3_Inventory_Management.py:197 | the filtered rows whose status is Critical |
| `InventoryPage.LowStockItems` | pages/3_Inventory_Management.py:210 | the filtered rows whose status is Low Stock |
| `InventoryPage.AlertListsDisjoint` | pages/3_Inventory_Management.py:197-210 | the critical and low-stock lists keep the filtered order, hold exactly the rows of their status, and share no row |
| `InventoryPage.AlertOf` | pages/3_Inventory_Management.py:201-202 | the item's material, ID and current stock, with `qty_needed = Reorder_Point − Current_Stock`; the cost is quantity × unit cost |
| `InventoryPage.CriticalAlerts` | pages/3_Inventory_Management.py:200-206 | one alert line for each of the first five critical rows |
| `InventoryPage.CriticalRowNeedsStock` | pages/3_Inventory_Management.py:197-202 | a Critical row needs a positive quantity |
| `InventoryPage.PageAlertsNeedStock` | pages/3_Inventory_Management.py:197-206 | on the page's inventory every alert needs a positive quantity at a non-negative cost |
| `App.CheckCredentials` | app.py:31-38 | valid iff the pair is admin/admin123 or powergrid/sih2025; the display name on success, None otherwise |
| `App.PasswordsAreNotShared` | app.py:32-36 | for every name and password: a successful login means the password is that user's own, so it logs in no other user; "Admin" and "POWERGRID" log in with no password, as names are case-sensitive |
| `App.CalculateStatus` | app.py:101-107 | always one of the three labelled statuses |
| `App.CalculateStatusIsCalcStatus` | app.py:101-107 | the home page's rule is the summary's `calc_status` |
| `App.AlertRows` | app.py:205 | the summary rows whose stock is below their reorder point, in order |
| `App.AlertRowsAreNotInStock` | app.py:205 | on the summary, the alert rows are exactly the rows not labelled In Stock, in order |
| `App.Ratio` | app.py:210 | stock divided by reorder point; `ZeroDivisionError` exactly for a zero reorder point |
| `App.AlertLineOf` | app.py:209-216 | the material, the shortage with stock + shortage = reorder point, the percentage of the reorder point, CRITICAL iff stock is below half of it; `ZeroDivisionError` iff the reorder point is 0 |
| `App.AlertLinesOf` | app.py:208-216 | one line per row in order, or `ZeroDivisionError` exactly when some row has reorder point 0 |
| `App.AlertLines` | app.py:205-221 | the Smart Alerts loop over the alert rows: one line per row, or ZeroDivisionError exactly when some alert row has reorder point 0 |
| `App.AlertLineFacts` | app.py:209-221 | for an alert row with non-negative stock: no exception, a positive shortage, a percentage in [0, 100), and CRITICAL exactly for Critical rows |
| `App.DashboardAlertLines` | app.py:205-221 | on the dashboard of a generated inventory the alert lines raise nothing, and each has a positive shortage and a percentage in [0, 100) |
| `App.StockedAlertLines` | app.py:205-221 | for any summary whose rows aggregate groups of an inventory without negative stock, the alert lines raise nothing and have those properties |
| `App.GroupAlertLine` | app.py:209-221 | the alert line of a group below its reorder point raises nothing, has a positive shortage and a percentage in [0, 100) |
| `App.NonNegativeStockSum` | inventory_data.py:120 | non-negative stocks sum to a non-negative group stock |
| `App.Session.constructor` | app.py:25-29 | a fresh session is logged out with no name and no dialog keys |
| `App.Session.Login` | app.py:81-86 | a valid pair sets the flag and the name; an invalid one changes nothing |
| `App.Session.Logout` | app.py:40-43 | clears the flag and the name only |
| `App.Session.Dismiss` | app.py:146-148 | sets `alert_dismissed` |
| `App.Session.AutoDialog` | app.py:248-257 | a logged-out run changes nothing; a logged-in run defaults both keys to False, opens the dialog iff there are alerts and it was neither shown nor dismissed, and then records it as shown; every other key is kept |
| `App.RunSession` | app.py:152-257 | in any sequence of logins, logouts, dismissals and home-page runs, the dialog opens automatically at most once, and never once it has been shown (the "View Detailed Alert" button is not counted) |
| `Procurement.SanitizeColumn` | pages/4_Procurement_Planning.py:40 | a sanitised header has no spaces and no Python whitespace at either end; it is empty iff the header was all whitespace |
| `Procurement.SanitizeColumns` | pages/4_Procurement_Planning.py:40 | every header sanitised, in order |
| `Procurement.SanitizeIdempotent` | pages/4_Procurement_Planning.py:40 | sanitising twice is sanitising once |
| `Procurement.DetectColumn` | pages/4_Procurement_Planning.py:42-43 | the first header whose lower-cased name matches a pattern; `IndexError` iff none does |
| `Procurement.ProjectTypePatternIsPrefix` | pages/4_Procurement_Planning.py:42 | the pattern `project_ty\|project_type` matches exactly the names containing `project_ty` |
| `Procurement.MapLabel` | pages/4_Procurement_Planning.py:44-45 | the map's label for a known key, the cell's own text otherwise |
| `Procurement.KeyOf` | pages/4_Procurement_Planning.py:44-45 | the dictionary key a cell looks up: its string or integer, an integral float as its integer, nothing for other floats and missing cells |
| `Procurement.PyStr` | pages/4_Procurement_Planning.py:44-45 | `astype(str)` of a cell, "nan" for a missing one |
| `Procurement.StateLabelIsStable` | pages/4_Procurement_Planning.py:22-34 | labelling a state label again changes nothing |
| `Procurement.ProjectTypeLabelIsStable` | pages/4_Procurement_Planning.py:14-20 | labelling a project-type label again changes nothing |
| `Procurement.LoadData` | pages/4_Procurement_Planning.py:38-47 | `IndexError` iff a label column cannot be detected; then, when a detected header names two columns, `TypeError` from `DataFrame.map` (or `ValueError` from the assignment when there are no records); `ValueError` when `Date` names two columns; `KeyError` exactly when the label headers are unique and `Date` is missing; otherwise the sanitised headers and each record's two labels |
| `Procurement.Repeated` | pages/4_Procurement_Planning.py:44-46 | a header that names two columns, so `df[name]` selects a frame |
| `Procurement.LabelColumn` | pages/4_Procurement_Planning.py:44-45 | one label per record: the map's label of the record's cell in the detected column |
| `Procurement.FilterOptions` | pages/4_Procurement_Planning.py:58-61 | "All" first, then each distinct value once, sorted |
| `Procurement.FilterProcurement` | pages/4_Procurement_Planning.py:65-69 | the two filter steps select exactly the rows chosen by both widgets |
| `Procurement.Chosen` | pages/4_Procurement_Planning.py:65-69 | "All" keeps every value; any other choice keeps the equal ones |
| `Procurement.ChoiceMask` | pages/4_Procurement_Planning.py:65-69 | both widgets' conditions as one mask |
| `Procurement.ChoiceSelection` | pages/4_Procurement_Planning.py:65-69 | the selection keeps the order and exactly the chosen rows; All/All keeps everything |
| `Procurement.StateColumn` | pages/4_Procurement_Planning.py:75 | the `State_Full` column |
| `Procurement.ActiveStates` | pages/4_Procurement_Planning.py:75 | `nunique()`: the number of distinct states among the rows; hence at most the row count and at least 1 on a non-empty frame |
| `Procurement.SelectedStateIsOnlyActive` | pages/4_Procurement_Planning.py:65-75 | once a state is selected, at most one state is active |
| `Procurement.EstimateMonotone` | pages/4_Procurement_Planning.py:81 | with non-negative quantities, selecting fewer rows never raises the estimated budget |
| `Procurement.TotalMonotone` | pages/4_Procurement_Planning.py:81 | the same for the summed quantity |
| `Procurement.TotalQuantity` | pages/4_Procurement_Planning.py:81 | `Quantity_Procured.sum()` of the filtered rows |
| `Procurement.EstimatedBudget` | pages/4_Procurement_Planning.py:81 | the summed quantity times 0.002 |
| `Procurement.BudgetUtilization` | pages/4_Procurement_Planning.py:91-95 | at most 100; 0 without a positive plan; 100 once the estimate reaches the plan; below it, `int()` of the percentage, truncated toward zero for negative estimates too |
| `Procurement.RatioBounds` | pages/4_Procurement_Planning.py:93 | against a positive plan the percentage is non-negative for a non-negative estimate, below 100 below the plan, and at least 100 from the plan on |
| `Procurement.BudgetUtilizationMonotone` | pages/4_Procurement_Planning.py:92-95 | a larger estimate never shows a smaller percentage |

## Where the intended behaviour and the code differ (the model follows the code)

- **Aggregation example.** The intended example aggregates item rows (30, 100) and (40, 120) to Critical. The code aggregates them to stock 70 against a maximum reorder point of 120. That is at least half of 120, so the status is Low Stock (`InventoryData.AggregationExample`).
- **Fallback pair.** The fallback pair (100, 500) is meant to be distinguishable from a computed result, but it is also an ordinary result of the formula (`InventoryData.FallbackIsAlsoAGenuineResult`).
- **Equipment comment.** The comment at inventory_data.py:59 expects the Equipment total to be Critical. The summary compares a sum of stocks with a maximum of reorder points, so five Critical SKUs can aggregate to In Stock (`InventoryData.EquipmentTotalCanBeInStock`). The model keeps the code's aggregation.
- **Status rules.** The item rule tests Critical first; `calc_status` and `calculate_status` test In Stock first. They agree only for non-negative reorder points (`StockStatus.OrderingsAgree`, `StockStatus.OrderingsDisagreeBelowZero`). The generator never produces a negative reorder point.

## Left out

- `pages/2_Demand_Forecast.py` is not part of this model.
- Rendering is not modelled: Streamlit widgets, layout, charts, CSS, toasts, `st.rerun` and `st.switch_page`. Widget values are parameters.
- `@st.cache_data` is not modelled; every call recomputes.
- File I/O is not modelled. `pd.read_csv` is replaced by the headers and records passed to `Procurement.LoadData`.
- Procurement.LoadData: the `Date` lookup is modelled for its `KeyError` when no header is `Date` and its `ValueError` when two are; the `to_datetime` parse itself and its errors on unparseable dates are left out. A detected label header that names two columns is modelled with the exceptions of pandas 2.1 and later (`TypeError` from `DataFrame.map`, `ValueError` on a frame without records); older pandas raised `AttributeError` instead.
- Procurement.TotalQuantity: quantities are plain reals, so the way `.sum()` skips missing (NaN) quantities is not modelled.
- The procurement page's average GST metric, the row count and the "Showing n of m" counters are not modelled; they are single pandas reductions with no logic of their own.
- `norm.ppf` and `np.sqrt(lead_time)` are inputs (`Env.z`, `Env.sqrtOf`), not computed. numpy's Mersenne Twister is replaced by an arbitrary stream of fractions, so the actual seed-42 values are not reproduced; every property is proved for every stream.
- Floating-point rounding is not modelled: products and quotients are exact reals. `InventoryPage.FloorSqrt` takes the exact square root.
- `InventoryPage.CalculateEoq` raises `ZeroDivisionError` for a zero holding cost, as Python floats do. With numpy scalars the division would give inf or NaN instead.
- `InventoryPage.MatchesSearch` reads the search term as a plain string. The code passes it to `str.contains` as a regular expression, so terms with regex metacharacters behave differently.
- `Text.Lower` folds ASCII letters only; Python's `str.lower` also folds other scripts.
- `Procurement.KeyOf` reduces pandas' dtype handling to four cell kinds. A float column (such as one with missing values) looks integral floats up under their integer key, and `str()` of a float is carried as the cell's text.
- `Procurement.StateLabelIsStable` and `Procurement.ProjectTypeLabelIsStable` exclude float cells, whose printed text can be anything.
- `Procurement.FilterOptions` does not model `dropna()`, because the labelled columns never hold missing values after `fillna`.
- `App.Session` does not model the other pages' session keys (`forecast_df`), which nothing in the core writes.

=== FILE: app.dfy ===
/**
 * app.py: the demo credentials, the home page's status rule, the Smart
 * Alerts built from the dashboard summary, and the session flags for login,
 * logout and the once-per-session alert dialog.
 */
module App {
  import opened Wrappers
  import opened Floats
  import opened StockStatus
  import opened Seqs
  import opened InventoryData

  // ---------------------------------------------------------------------------
  // check_credentials
  // ---------------------------------------------------------------------------

  datatype User = User(password: string, name: string)

  /** The `users` dictionary. */
  const Users: map<string, User> :=
    map["admin" := User("admin123", "Admin"), "powergrid" := User("sih2025", "POWERGRID")]

  /**
   * `check_credentials(username, password)`: (True, name) exactly for the two
   * demo accounts with their own passwords, (False, None) for anything else.
   */
  function CheckCredentials(username: string, password: string): (r: (bool, Option<string>))
    ensures r.0 <==> (username == "admin" && password == "admin123") || (username == "powergrid" && password == "sih2025")
    ensures r.0 ==> r.1 == Some(if username == "admin" then "Admin" else "POWERGRID")
    ensures !r.0 ==> r.1 == None
  {
    if username in Users && Users[username].password == password then (true, Some(Users[username].name))
    else (false, None)
  }

  /**
   * A password alone never logs in: it must belong to the account named, so a
   * password that logs in one user logs in no other, and user names are
   * compared case-sensitively.
   */
  lemma PasswordsAreNotShared(username: string, password: string)
    ensures CheckCredentials(username, password).0 ==> username in Users && Users[username].password == password
    ensures CheckCredentials(username, password).0 ==>
              forall other :: other != username ==> !CheckCredentials(other, password).0
    ensures !CheckCredentials("Admin", password).0 && !CheckCredentials("POWERGRID", password).0
  {
  }

  // ---------------------------------------------------------------------------
  // calculate_status
  // ---------------------------------------------------------------------------

  /** `calculate_status(stock, reorder)`: In Stock first, then Critical below half the reorder point, else Low Stock. */
  function CalculateStatus(stock: int, reorder: int): (text: string)
    ensures text in {"\U{1F7E2} In Stock", "\U{1F534} Critical", "\U{1F7E1} Low Stock"}
  {
    if stock >= reorder then "\U{1F7E2} In Stock"
    else if (stock as real) < (reorder as real) * 0.5 then "\U{1F534} Critical"
    else "\U{1F7E1} Low Stock"
  }

  /** The home page's rule is the summary's `calc_status` for every stock and reorder point. */
  lemma CalculateStatusIsCalcStatus(stock: int, reorder: int)
    ensures CalculateStatus(stock, reorder) == CalcStatus(stock, reorder)
    ensures CalculateStatus(stock, reorder) == SummaryLabel(ClassifyInStockFirst(stock, reorder))
  {
  }

  // ---------------------------------------------------------------------------
  // Smart Alerts
  // ---------------------------------------------------------------------------

  /** `materials_data[materials_data['Stock'] < materials_data['Reorder_Point']]` */
  function AlertRows(summary: seq<SummaryRow>): seq<SummaryRow> {
    Filter(summary, (row: SummaryRow) => row.stock < row.reorderPoint)
  }

  /** On the dashboard summary the alert rows are exactly the rows not labelled In Stock, in the same order. */
  lemma AlertRowsAreNotInStock(items: seq<ItemRow>)
    ensures AlertRows(Summarize(items))
         == Filter(Summarize(items), (row: SummaryRow) => row.status != "\U{1F7E2} In Stock")
  {
    var summary := Summarize(items);
    forall row | row in summary
      ensures (row.stock < row.reorderPoint) == (row.status != "\U{1F7E2} In Stock")
    {
      var a :| 0 <= a < |summary| && summary[a] == row;
      assert AggregatesGroup(items, summary[a]);
    }
    FilterExt(summary, (row: SummaryRow) => row.stock < row.reorderPoint,
                       (row: SummaryRow) => row.status != "\U{1F7E2} In Stock");
  }

  datatype AlertLevel = CriticalLevel | LowLevel

  /** One line of the Smart Alerts and of the alert dialog. */
  datatype AlertLine = AlertLine(material: string, shortage: int, percentage: real, level: AlertLevel)

  /**
   * `item['Stock'] / item['Reorder_Point']`: `iterrows()` on the mixed-type
   * summary yields Python ints, so a zero reorder point raises.
   */
  function Ratio(stock: int, reorder: int): (r: Result<real>)
    ensures r.Err? <==> reorder == 0
    ensures r.Err? ==> r.error == ZeroDivisionError
    ensures r.Ok? ==> r.value * (reorder as real) == stock as real
  {
    if reorder == 0 then Err(ZeroDivisionError) else Ok(stock as real / reorder as real)
  }

  /** The shortage, the percentage of the reorder point, and CRITICAL below half of it, otherwise LOW. */
  function AlertLineOf(row: SummaryRow): (r: Result<AlertLine>)
    ensures r.Err? <==> row.reorderPoint == 0
    ensures r.Err? ==> r.error == ZeroDivisionError
    ensures r.Ok? ==> && r.value.material == row.material
                      && r.value.shortage + row.stock == row.reorderPoint
                      && r.value.percentage * (row.reorderPoint as real) == 100.0 * row.stock as real
                      && (r.value.level == CriticalLevel <==> 2 * row.stock < row.reorderPoint)
  {
    var shortage := row.reorderPoint - row.stock;
    var ratio :- Ratio(row.stock, row.reorderPoint);
    var level := if (row.stock as real) < (row.reorderPoint as real) * 0.5 then CriticalLevel else LowLevel;
    Ok(AlertLine(row.material, shortage, ratio * 100.0, level))
  }

  /** The loop over the alert rows: one line per row, or the exception of the first row that raises. */
  function AlertLinesOf(rows: seq<SummaryRow>): (r: Result<seq<AlertLine>>)
    ensures r.Err? <==> exists a :: 0 <= a < |rows| && rows[a].reorderPoint == 0
    ensures r.Err? ==> r.error == ZeroDivisionError
    ensures r.Ok? ==> |r.value| == |rows| && forall a :: 0 <= a < |rows| ==> AlertLineOf(rows[a]) == Ok(r.value[a])
  {
    if rows == [] then Ok([])
    else
      var head :- AlertLineOf(rows[0]);
      var tail :- AlertLinesOf(rows[1..]);
      assert forall a :: 1 <= a < |rows| ==> rows[a] == rows[1..][a - 1];
      Ok([head] + tail)
  }

  /** The Smart Alerts lines of the dashboard summary. */
  function AlertLines(summary: seq<SummaryRow>): (r: Result<seq<AlertLine>>)
    ensures r.Ok? <==> forall a :: 0 <= a < |AlertRows(summary)| ==> AlertRows(summary)[a].reorderPoint != 0
    ensures r.Ok? ==> && |r.value| == |AlertRows(summary)|
                      && forall a :: 0 <= a < |r.value| ==> AlertLineOf(AlertRows(summary)[a]) == Ok(r.value[a])
  {
    AlertLinesOf(AlertRows(summary))
  }

  /**
   * For a row in the alert list with non-negative stock: no exception, a
   * positive shortage, a percentage in [0, 100), and CRITICAL exactly when
   * the summary labels the row Critical.
   */
  lemma AlertLineFacts(row: SummaryRow)
    requires row.stock < row.reorderPoint && 0 <= row.stock
    requires row.status == CalcStatus(row.stock, row.reorderPoint)
    ensures AlertLineOf(row).Ok?
    ensures var line := AlertLineOf(row).value;
            && 0 < line.shortage
            && 0.0 <= line.percentage < 100.0
            && (line.level == CriticalLevel <==> row.status == "\U{1F534} Critical")
  {
    var s, r := row.stock as real, row.reorderPoint as real;
    assert 0.0 < r;
    assert s / r < 1.0 by {
      assert s < r;
      DivBelowOne(s, r);
    }
    assert 0.0 <= s / r;
  }

  lemma DivBelowOne(s: real, r: real)
    requires 0.0 <= s < r
    ensures s / r < 1.0
  {
    assert s / r * r == s;
  }

  /** The dashboard of a generated inventory shows its alert lines without an exception, each with a positive shortage and a level below 100%. */
  lemma DashboardAlertLines(env: Env)
    requires NonNegativeInputs(env)
    ensures AlertLines(Summarize(FullInventory(env))).Ok?
    ensures var lines := AlertLines(Summarize(FullInventory(env))).value;
            forall a :: 0 <= a < |lines| ==> 0 < lines[a].shortage && 0.0 <= lines[a].percentage < 100.0
  {
    GeneratedStatuses(Fallback, env);
    var items := FullInventory(env);
    StockedAlertLines(items, Summarize(items));
  }

  /** The alert lines of any summary of an inventory without negative stock: no exception, a positive shortage and a level below 100%. */
  lemma StockedAlertLines(items: seq<ItemRow>, summary: seq<SummaryRow>)
    requires forall p :: 0 <= p < |items| ==> 0 <= items[p].currentStock
    requires forall b :: 0 <= b < |summary| ==> AggregatesGroup(items, summary[b])
    ensures AlertLines(summary).Ok?
    ensures var lines := AlertLines(summary).value;
            forall a :: 0 <= a < |lines| ==> 0 < lines[a].shortage && 0.0 <= lines[a].percentage < 100.0
  {
    var rows := AlertRows(summary);
    forall a | 0 <= a < |rows|
      ensures AlertLineOf(rows[a]).Ok?
      ensures var line := AlertLineOf(rows[a]).value;
              0 < line.shortage && 0.0 <= line.percentage < 100.0
    {
      var row := rows[a];
      assert row in summary && row.stock < row.reorderPoint;
      var b :| 0 <= b < |summary| && summary[b] == row;
      GroupAlertLine(items, row);
    }
  }

  /** The alert line of one aggregated group short of its reorder point. */
  lemma GroupAlertLine(items: seq<ItemRow>, row: SummaryRow)
    requires forall p :: 0 <= p < |items| ==> 0 <= items[p].currentStock
    requires AggregatesGroup(items, row) && row.stock < row.reorderPoint
    ensures AlertLineOf(row).Ok?
    ensures var line := AlertLineOf(row).value;
            0 < line.shortage && 0.0 <= line.percentage < 100.0
  {
    NonNegativeStockSum(items, Members(items, row.material));
    AlertLineFacts(row);
  }

  /** Generated stocks are never negative, so neither is a group's sum. */
  lemma {:induction false} NonNegativeStockSum(items: seq<ItemRow>, members: seq<ItemRow>)
    requires forall p :: 0 <= p < |items| ==> 0 <= items[p].currentStock
    requires forall k :: 0 <= k < |members| ==> members[k] in items
    ensures 0 <= SumStock(members)
  {
    if members != [] {
      assert members[0] in items;
      NonNegativeStockSum(items, members[1..]);
    }
  }

  // ---------------------------------------------------------------------------
  // Session flags
  // ---------------------------------------------------------------------------

  /**
   * The `st.session_state` keys the home page reads and writes. The two
   * dialog keys are absent until the authenticated home page first runs.
   */
  class Session {
    var authenticated: bool
    var name: Option<string>
    var dialogShown: Option<bool>
    var alertDismissed: Option<bool>

    /** A logged-in session carries the matched display name; a logged-out one none. */
    predicate Valid()
      reads this
    {
      && (authenticated <==> name.Some?)
      && (name.Some? ==> name.value == "Admin" || name.value == "POWERGRID")
    }

    /** `initialize_session_state()` on a fresh session. */
    constructor()
      ensures Valid()
      ensures !authenticated && name == None && dialogShown == None && alertDismissed == None
    {
      authenticated := false;
      name := None;
      dialogShown := None;
      alertDismissed := None;
    }

    /** The login form: a valid pair sets the flag and the name, anything else changes nothing. */
    method Login(username: string, password: string) returns (valid: bool)
      requires Valid()
      modifies this
      ensures Valid()
      ensures valid == CheckCredentials(username, password).0
      ensures valid ==> authenticated && name == CheckCredentials(username, password).1
      ensures !valid ==> authenticated == old(authenticated) && name == old(name)
      ensures dialogShown == old(dialogShown) && alertDismissed == old(alertDismissed)
    {
      var result := CheckCredentials(username, password);
      valid := result.0;
      if valid {
        authenticated := true;
        name := result.1;
      }
    }

    /** `logout()`: clears the flag and the name and nothing else; the dialog flags survive. */
    method Logout()
      modifies this
      ensures Valid()
      ensures !authenticated && name == None
      ensures dialogShown == old(dialogShown) && alertDismissed == old(alertDismissed)
    {
      authenticated := false;
      name := None;
    }

    /** The dialog's Dismiss button. */
    method Dismiss()
      modifies this
      ensures alertDismissed == Some(true)
      ensures authenticated == old(authenticated) && name == old(name) && dialogShown == old(dialogShown)
    {
      alertDismissed := Some(true);
    }

    /**
     * One run of the home page's AUTO DIALOG block (only reached when
     * authenticated): default the two keys to False, then open the dialog if
     * it was neither shown nor dismissed and there is something to alert.
     */
    method AutoDialog(hasAlerts: bool) returns (popped: bool)
      modifies this
      ensures popped <==> old(authenticated) && hasAlerts && old(dialogShown) != Some(true) && old(alertDismissed) != Some(true)
      ensures authenticated ==> dialogShown.Some? && alertDismissed.Some?
      ensures popped ==> dialogShown == Some(true)
      ensures old(dialogShown) == Some(true) ==> dialogShown == Some(true)
      ensures dialogShown == (if !old(authenticated) then old(dialogShown)
                              else if popped then Some(true)
                              else if old(dialogShown) == None then Some(false)
                              else old(dialogShown))
      ensures alertDismissed == (if old(authenticated) && old(alertDismissed) == None then Some(false) else old(alertDismissed))
      ensures authenticated == old(authenticated) && name == old(name)
    {
      popped := false;
      if !authenticated {
        return;
      }
      if dialogShown == None {
        dialogShown := Some(false);
      }
      if alertDismissed == None {
        alertDismissed := Some(false);
      }
      if !dialogShown.value && !alertDismissed.value && hasAlerts {
        popped := true;
        dialogShown := Some(true);
      }
    }
  }

  /** What a user can do between two runs of the home page. */
  datatype Event = LoginAttempt(username: string, password: string) | LogoutClick | DismissClick | HomeRun(hasAlerts: bool)

  /**
   * Replays a session's events and counts how often the dialog opened
   * automatically: at most once, and never again once it has been shown.
   */
  method RunSession(session: Session, events: seq<Event>) returns (opens: nat)
    requires session.Valid()
    modifies session
    ensures session.Valid()
    ensures opens <= 1
    ensures old(session.dialogShown) == Some(true) ==> opens == 0 && session.dialogShown == Some(true)
    ensures opens == 1 ==> session.dialogShown == Some(true)
  {
    opens := 0;
    var n := 0;
    while n < |events|
      invariant 0 <= n <= |events|
      decreases |events| - n
      invariant session.Valid()
      invariant opens <= 1
      invariant opens == 1 ==> session.dialogShown == Some(true)
      invariant old(session.dialogShown) == Some(true) ==> opens == 0 && session.dialogShown == Some(true)
    {
      match events[n] {
        case LoginAttempt(u, p) =>
          var _ := session.Login(u, p);
        case LogoutClick =>
          session.Logout();
        case DismissClick =>
          session.Dismiss();
        case HomeRun(hasAlerts) =>
          var popped := session.AutoDialog(hasAlerts);
          if popped {
            opens := opens + 1;
          }
      }
      n := n + 1;
    }
  }
}

=== FILE: floats.dfy ===
/**
 * Double-precision values as the replenishment code computes with them.
 * Finite values are idealised as exact reals (no rounding, no overflow);
 * the special values follow IEEE 754, which is what makes `int(...)` raise.
 */
module Floats {
  import opened Wrappers

  datatype Float = Finite(value: real) | PosInf | NegInf | NaN

  predicate IsPositive(a: Float) { a.PosInf? || (a.Finite? && a.value > 0.0) }

  predicate IsZero(a: Float) { a.Finite? && a.value == 0.0 }

  /** Finite and not below zero, or +inf. */
  predicate IsNonNegative(a: Float) { a.PosInf? || (a.Finite? && a.value >= 0.0) }

  /** IEEE multiplication: NaN absorbs, infinity times zero is NaN, otherwise the sign rule. */
  function Mul(a: Float, b: Float): Float {
    if a.NaN? || b.NaN? then NaN
    else if a.Finite? && b.Finite? then Finite(a.value * b.value)
    else if IsZero(a) || IsZero(b) then NaN
    else if IsPositive(a) == IsPositive(b) then PosInf
    else NegInf
  }

  /** IEEE addition: NaN absorbs, +inf plus -inf is NaN. */
  function Add(a: Float, b: Float): Float {
    if a.NaN? || b.NaN? then NaN
    else if a.Finite? && b.Finite? then Finite(a.value + b.value)
    else if (a.PosInf? && b.NegInf?) || (a.NegInf? && b.PosInf?) then NaN
    else if a.PosInf? || b.PosInf? then PosInf
    else NegInf
  }

  /**
   * Python's `max(a, 0)`: the first argument is kept unless `0 > a`, so a NaN
   * passes through unchanged and -inf becomes 0.
   */
  function MaxZero(a: Float): (r: Float)
    ensures r.NaN? <==> a.NaN?
    ensures !r.NaN? ==> IsNonNegative(r)
    ensures IsNonNegative(a) ==> r == a
  {
    match a
    case NaN => NaN
    case PosInf => PosInf
    case NegInf => Finite(0.0)
    case Finite(v) => if 0.0 > v then Finite(0.0) else a
  }

  /** `int(x)` on a finite float: truncation toward zero. */
  function Trunc(x: real): (r: int)
    ensures 0.0 <= x ==> 0 <= r && r as real <= x < r as real + 1.0
    ensures x < 0.0 ==> r <= 0 && r as real - 1.0 < x <= r as real
  {
    if x >= 0.0 then x.Floor else -((-x).Floor)
  }

  /** `int(a)` on a float: NaN raises ValueError, an infinity OverflowError. */
  function ToInt(a: Float): (r: Result<int>)
    ensures r.Ok? <==> a.Finite?
    ensures r.Err? ==> (r.error == ValueError <==> a.NaN?)
    ensures a.Finite? && a.value >= 0.0 ==> r.Ok? && r.value == a.value.Floor
  {
    match a
    case Finite(v) => Ok(Trunc(v))
    case NaN => Err(ValueError)
    case _ => Err(OverflowError)
  }

  /** numpy's `rint`: the nearest integer, ties to the even one. */
  function RoundHalfEven(y: real): (r: int)
    ensures -0.5 <= r as real - y <= 0.5
    ensures (r as real - y == 0.5 || y - r as real == 0.5) ==> r % 2 == 0
  {
    var f := y.Floor;
    var d := y - f as real;
    if d < 0.5 then f
    else if d > 0.5 then f + 1
    else if f % 2 == 0 then f else f + 1
  }

  /** Rounding to the nearest integer stays within any integer bounds around its argument. */
  lemma RoundHalfEvenBetween(y: real, low: int, high: int)
    requires low as real <= y <= high as real
    ensures low <= RoundHalfEven(y) <= high
  {
  }

  /** `round(x, 2)` on a finite value: rint(x * 100) / 100. */
  function RoundTo2(x: real): (r: real)
    ensures -0.005 <= r - x <= 0.005
  {
    RoundHalfEven(x * 100.0) as real / 100.0
  }

  /** `round(a, 2)` on a numpy float: the special values are returned unchanged. */
  function Round2(a: Float): (r: Float)
    ensures a.Finite? <==> r.Finite?
    ensures a.Finite? ==> -0.005 <= r.value - a.value <= 0.005
    ensures !a.Finite? ==> r == a
  {
    match a
    case Finite(v) => Finite(RoundTo2(v))
    case _ => a
  }
}

=== FILE: inventory_data.dfy ===
/**
 * inventory_data.py: the replenishment calculator with its fallback, the
 * seeded fixture generator `load_full_inventory`, and the dashboard
 * aggregation `get_dashboard_summary`.
 */
module InventoryData {
  import opened Wrappers
  import opened Floats
  import opened StockStatus
  import opened Text
  import opened Seqs
  import Replenishment

  /** One dictionary appended by the generator: a row of the inventory frame. */
  datatype ItemRow = ItemRow(
    materialId: string,
    material: string,
    currentStock: int,
    reorderPoint: int,
    safetyStock: int,
    avgDailyDemand: int,
    leadTimeDays: int,
    unitCost: real,
    supplier: string,
    status: string,
    serviceLevel: string)

  // ---------------------------------------------------------------------------
  // calculate_inventory_metrics, the copy that catches every exception
  // ---------------------------------------------------------------------------

  /** The pair returned from the `except` branch. */
  const FallbackMetrics := Replenishment.Metrics(100, 500)

  /**
   * `calculate_inventory_metrics(avg_demand_per_day, lead_time_days, demand_std_dev)`
   * with z = norm.ppf(service_level) and sqrt(lead_time_days) supplied by the caller.
   */
  function CalculateInventoryMetrics(avgDemand: real, leadTime: real, stdDev: real, z: Float, sqrtLead: Float)
    : (m: Replenishment.Metrics)
    ensures 0 <= m.safetyStock && 0 <= m.reorderPoint
    ensures Replenishment.Compute(avgDemand, leadTime, stdDev, z, sqrtLead).Err? ==> m == FallbackMetrics
    ensures Replenishment.Compute(avgDemand, leadTime, stdDev, z, sqrtLead).Ok?
            ==> m == Replenishment.Compute(avgDemand, leadTime, stdDev, z, sqrtLead).value
  {
    match Replenishment.Compute(avgDemand, leadTime, stdDev, z, sqrtLead)
    case Ok(m) => m
    case Err(_) => FallbackMetrics
  }

  /** The fallback pair is also an ordinary result, so a caller cannot tell that an exception occurred. */
  lemma FallbackIsAlsoAGenuineResult()
    ensures Replenishment.Compute(400.0, 1.0, 100.0, Finite(1.0), Finite(1.0)) == Ok(FallbackMetrics)
    ensures CalculateInventoryMetrics(400.0, 1.0, 100.0, Finite(1.0), Finite(1.0))
         == CalculateInventoryMetrics(400.0, 1.0, 100.0, NaN, Finite(1.0))
  {
    Replenishment.ComputeFinite(400.0, 1.0, 100.0, 1.0, 1.0);
    Replenishment.NaNQuantileRaises(400.0, 1.0, 100.0, Finite(1.0));
  }

  // ---------------------------------------------------------------------------
  // The seeded fixture generator
  // ---------------------------------------------------------------------------

  /** One value of numpy's seeded stream, as a fraction of the requested range. */
  type Fraction = u: real | 0.0 <= u < 1.0

  /** The stream numpy produces after `np.random.seed(42)`, one position per call. */
  type Draws = nat -> Fraction

  /**
   * What the generator takes from outside: z = norm.ppf(0.95), the square root
   * numpy returns for each lead time, and the random stream.
   */
  datatype Env = Env(z: Float, sqrtOf: int -> Float, draws: Draws)

  /** `np.random.randint(low, high)`: a value in [low, high), ValueError when the range is empty. */
  function RandInt(u: Fraction, low: int, high: int): (r: Result<int>)
    ensures r.Ok? <==> low < high
    ensures r.Ok? ==> low <= r.value < high
  {
    if low >= high then Err(ValueError)
    else
      var width := (high - low) as real;
      assert u * width < width;
      Ok(low + (u * width).Floor)
  }

  /** `np.random.uniform(low, high)` */
  function Uniform(u: Fraction, low: real, high: real): (r: real)
    requires low <= high
    ensures low <= r <= high
  {
    var width := high - low;
    var offset := u * width;
    ScaleFraction(u, width);
    assert 0.0 <= offset <= width;
    low + offset
  }

  lemma ScaleFraction(u: Fraction, width: real)
    requires 0.0 <= width
    ensures 0.0 <= u * width <= width
  {
  }

  const Materials: seq<string> := ["Steel", "Cement", "Conductors", "Equipment"]
  const SkusPerMaterial: nat := 5
  const ItemCount: nat := 20

  /** `f'M{i}{j:03d}'` */
  function MaterialId(i: nat, j: nat): string {
    "M" + DecimalString(i) + Format03d(j)
  }

  /** Identifiers of distinct positions differ while i has one digit and j at most three. */
  lemma MaterialIdsDistinct(i: nat, j: nat, i': nat, j': nat)
    requires i < 10 && i' < 10 && j < 1000 && j' < 1000
    requires i != i' || j != j'
    ensures MaterialId(i, j) != MaterialId(i', j')
  {
    Format03dDigits(j);
    Format03dDigits(j');
    var a, b := MaterialId(i, j), MaterialId(i', j');
    assert a == ['M', Digit(i), Digit(j / 100), Digit(j / 10 % 10), Digit(j % 10)];
    assert b == ['M', Digit(i'), Digit(j' / 100), Digit(j' / 10 % 10), Digit(j' % 10)];
    if i != i' {
      DigitInjective(i, i');
      assert a[1] != b[1];
    } else {
      ThreeDigitsDiffer(j, j');
      if j / 100 != j' / 100 {
        DigitInjective(j / 100, j' / 100);
        assert a[2] != b[2];
      } else if j / 10 % 10 != j' / 10 % 10 {
        DigitInjective(j / 10 % 10, j' / 10 % 10);
        assert a[3] != b[3];
      } else {
        DigitInjective(j % 10, j' % 10);
        assert a[4] != b[4];
      }
    }
  }

  /** Share of the reorder point given to the j-th Cement SKU. */
  function CementFraction(j: nat): real {
    if j == 0 then 0.3 else if j == 1 then 0.5 else if j == 2 then 0.6 else if j == 3 then 0.7 else 0.65
  }

  /** Share of the reorder point given to the j-th Equipment SKU. */
  function EquipmentFraction(j: nat): real {
    if j == 0 then 0.2 else if j == 1 then 0.3 else if j == 2 then 0.35 else if j == 3 then 0.4 else 0.25
  }

  /**
   * `current_stock` of SKU j: a fixed share of the reorder point for Cement
   * and Equipment, otherwise a draw from [int(1.2 r), int(2.5 r)); also the
   * next stream position.
   */
  function BiasedStock(material: string, j: nat, reorder: int, draws: Draws, k: nat): Result<(int, nat)> {
    if material == "Cement" then Ok((Trunc(reorder as real * CementFraction(j)), k))
    else if material == "Equipment" then Ok((Trunc(reorder as real * EquipmentFraction(j)), k))
    else
      var stock :- RandInt(draws(k), Trunc(reorder as real * 1.2), Trunc(reorder as real * 2.5));
      Ok((stock, k + 1))
  }

  /** `f'Supplier {chr(65 + n)}'` */
  function SupplierName(n: int): string
    requires 0 <= n < 5
  {
    "Supplier " + [(65 + n) as char]
  }

  /**
   * `calculate_inventory_metrics` as the loop calls it, on
   * (avg_daily_demand, lead_time_days) with demand_std_dev = 0.3 * avg_daily_demand.
   */
  type MetricsFn = (int, int) -> Result<Replenishment.Metrics>

  /** Which copy of `calculate_inventory_metrics` the loop calls: the one that falls back, or the page's, which raises. */
  datatype Policy = Fallback | Propagate

  /** The metrics of one SKU under either copy. */
  function SkuMetrics(policy: Policy, env: Env, demand: int, lead: int): Result<Replenishment.Metrics> {
    var stdDev := demand as real * 0.3;
    match policy
    case Fallback => Ok(CalculateInventoryMetrics(demand as real, lead as real, stdDev, env.z, env.sqrtOf(lead)))
    case Propagate => Replenishment.Compute(demand as real, lead as real, stdDev, env.z, env.sqrtOf(lead))
  }

  function MetricsOf(policy: Policy, env: Env): MetricsFn {
    (demand: int, lead: int) => SkuMetrics(policy, env, demand, lead)
  }

  /**
   * The row of SKU j of material i when the stream stands at position k,
   * with the position after it: the draws come in the order demand, lead
   * time, stock (Steel and Conductors only), unit cost, supplier.
   */
  function Sku(metricsOf: MetricsFn, draws: Draws, i: nat, j: nat, k: nat): Result<(ItemRow, nat)>
    requires i < |Materials|
  {
    var demand := RandInt(draws(k), 20, 80).value;
    var lead := RandInt(draws(k + 1), 15, 45).value;
    var metrics :- metricsOf(demand, lead);
    var reorder := metrics.reorderPoint;
    var drawn :- BiasedStock(Materials[i], j, reorder, draws, k + 2);
    var stock, next := drawn.0, drawn.1;
    var status := ItemLabel(ClassifyCriticalFirst(stock, reorder));
    var cost := RoundTo2(Uniform(draws(next), 50.0, 500.0));
    var supplier := RandInt(draws(next + 1), 0, 5).value;
    Ok((ItemRow(MaterialId(i, j), Materials[i], stock, reorder, metrics.safetyStock, demand, lead,
                cost, SupplierName(supplier), status, "95%"), next + 2))
  }

  /** The body of the inner loop: the row of SKU j of material i from stream position k, and the next position. */
  type Step = (nat, nat, nat) -> Result<(ItemRow, nat)>

  function StepWith(metricsOf: MetricsFn, draws: Draws): Step {
    (i: nat, j: nat, k: nat) => if i < |Materials| then Sku(metricsOf, draws, i, j, k) else Err(IndexError)
  }

  lemma StepIsSku(metricsOf: MetricsFn, draws: Draws, i: nat, j: nat, k: nat)
    requires i < |Materials|
    ensures StepWith(metricsOf, draws)(i, j, k) == Sku(metricsOf, draws, i, j, k)
  {
  }

  /** The rows from SKU j of material i to the end, in the order of the two nested loops. */
  function RowsFrom(step: Step, i: nat, j: nat, k: nat): Result<seq<ItemRow>>
    requires i <= |Materials| && j <= SkusPerMaterial
    decreases |Materials| - i, SkusPerMaterial - j
  {
    if i == |Materials| then Ok([])
    else if j == SkusPerMaterial then RowsFrom(step, i + 1, 0, k)
    else
      var sku :- step(i, j, k);
      var rest :- RowsFrom(step, i, j + 1, sku.1);
      Ok([sku.0] + rest)
  }

  /** All twenty rows, or the exception that interrupted the loops. */
  function Rows(metricsOf: MetricsFn, draws: Draws): Result<seq<ItemRow>> {
    RowsFrom(StepWith(metricsOf, draws), 0, 0, 0)
  }

  /** The inventory generated by either copy. */
  function Inventory(policy: Policy, env: Env): Result<seq<ItemRow>> {
    Rows(MetricsOf(policy, env), env.draws)
  }

  /** What `load_full_inventory` returns: the rows, or the empty frame after an exception. */
  function FullInventory(env: Env): seq<ItemRow> {
    match Inventory(Fallback, env)
    case Ok(rows) => rows
    case Err(_) => []
  }

  function Prepend(prefix: seq<ItemRow>, r: Result<seq<ItemRow>>): Result<seq<ItemRow>> {
    match r
    case Ok(rows) => Ok(prefix + rows)
    case Err(e) => Err(e)
  }

  lemma PrependNothing(r: Result<seq<ItemRow>>)
    ensures Prepend([], r) == r
  {
    if r.Ok? {
      assert [] + r.value == r.value;
    }
  }

  /** One more SKU appended to the rows so far leaves the same rows still to come. */
  lemma PrependStep(step: Step, data: seq<ItemRow>, i: nat, j: nat, k: nat, row: ItemRow, next: nat)
    requires i < |Materials| && j < SkusPerMaterial
    requires step(i, j, k) == Ok((row, next))
    ensures Prepend(data, RowsFrom(step, i, j, k)) == Prepend(data + [row], RowsFrom(step, i, j + 1, next))
  {
    var rest := RowsFrom(step, i, j + 1, next);
    if rest.Ok? {
      assert data + ([row] + rest.value) == data + [row] + rest.value;
    }
  }

  /** A failing SKU ends the rows with its exception. */
  lemma PrependFailure(step: Step, data: seq<ItemRow>, i: nat, j: nat, k: nat)
    requires i < |Materials| && j < SkusPerMaterial
    requires step(i, j, k).Err?
    ensures Prepend(data, RowsFrom(step, i, j, k)) == Err(step(i, j, k).error)
  {
  }

  /** After the last material nothing is left to generate. */
  lemma PrependDone(step: Step, data: seq<ItemRow>, k: nat)
    ensures Prepend(data, RowsFrom(step, |Materials|, 0, k)) == Ok(data)
  {
    assert data + [] == data;
  }

  /** After the last SKU of a material the rows continue with the next material. */
  lemma NextMaterial(step: Step, i: nat, k: nat)
    requires i < |Materials|
    ensures RowsFrom(step, i, SkusPerMaterial, k) == RowsFrom(step, i + 1, 0, k)
  {
  }

  /** The `current_stock` branch of the loop body, with the stream position after it. */
  method DrawStock(material: string, j: nat, reorderPoint: int, draws: Draws, k: nat) returns (r: Result<(int, nat)>)
    ensures r == BiasedStock(material, j, reorderPoint, draws, k)
  {
    if material == "Cement" {
      r := Ok((Trunc(reorderPoint as real * CementFraction(j)), k));
    } else if material == "Equipment" {
      r := Ok((Trunc(reorderPoint as real * EquipmentFraction(j)), k));
    } else {
      var drawn := RandInt(draws(k), Trunc(reorderPoint as real * 1.2), Trunc(reorderPoint as real * 2.5));
      if drawn.Err? {
        return Err(drawn.error);
      }
      r := Ok((drawn.value, k + 1));
    }
  }

  /**
   * The body of the inner loop of `load_full_inventory()` (and of the page's
   * `load_inventory()`): one SKU's draws, metrics, biased stock, status and row.
   */
  method GenerateSku(metricsOf: MetricsFn, draws: Draws, i: nat, j: nat, k: nat) returns (r: Result<(ItemRow, nat)>)
    requires i < |Materials|
    ensures r == Sku(metricsOf, draws, i, j, k)
  {
    var material := Materials[i];
    var next := k;
    var avgDailyDemand := RandInt(draws(next), 20, 80).value;
    var leadTimeDays := RandInt(draws(next + 1), 15, 45).value;
    next := next + 2;
    var metrics :- metricsOf(avgDailyDemand, leadTimeDays);
    var reorderPoint := metrics.reorderPoint;
    var drawn := DrawStock(material, j, reorderPoint, draws, next);
    if drawn.Err? {
      return Err(drawn.error);
    }
    var currentStock := drawn.value.0;
    next := drawn.value.1;
    var status := if (currentStock as real) < (reorderPoint as real) * 0.5 then "Critical"
                  else if currentStock < reorderPoint then "Low Stock"
                  else "In Stock";
    assert status == ItemLabel(ClassifyCriticalFirst(currentStock, reorderPoint));
    var unitCost := RoundTo2(Uniform(draws(next), 50.0, 500.0));
    var supplier := SupplierName(RandInt(draws(next + 1), 0, 5).value);
    next := next + 2;
    r := Ok((ItemRow(MaterialId(i, j), material, currentStock, reorderPoint, metrics.safetyStock,
                     avgDailyDemand, leadTimeDays, unitCost, supplier, status, "95%"), next));
  }

  /**
   * The inner loop of `load_full_inventory()` (and of the page's
   * `load_inventory()`) for material i: five SKUs appended to `data`, or the
   * exception of the first one that raises.
   */
  method GenerateMaterial(metricsOf: MetricsFn, draws: Draws, i: nat, data: seq<ItemRow>, k: nat)
    returns (r: Result<(seq<ItemRow>, nat)>)
    requires i < |Materials|
    ensures r.Err? ==> Prepend(data, RowsFrom(StepWith(metricsOf, draws), i, 0, k)) == Err(r.error)
    ensures r.Ok? ==> Prepend(data, RowsFrom(StepWith(metricsOf, draws), i, 0, k))
                      == Prepend(r.value.0, RowsFrom(StepWith(metricsOf, draws), i + 1, 0, r.value.1))
  {
    ghost var step := StepWith(metricsOf, draws);
    var rows := data;
    var next := k;
    for j := 0 to SkusPerMaterial
      invariant Prepend(data, RowsFrom(step, i, 0, k)) == Prepend(rows, RowsFrom(step, i, j, next))
    {
      var sku := GenerateSku(metricsOf, draws, i, j, next);
      StepIsSku(metricsOf, draws, i, j, next);
      if sku.Err? {
        PrependFailure(step, rows, i, j, next);
        return Err(sku.error);
      }
      PrependStep(step, rows, i, j, next, sku.value.0, sku.value.1);
      rows := rows + [sku.value.0];
      next := sku.value.1;
    }
    NextMaterial(step, i, next);
    r := Ok((rows, next));
  }

  /**
   * The two nested loops of `load_full_inventory()` (and of the page's
   * `load_inventory()`), appending one row per SKU; an exception ends them.
   */
  method GenerateRows(metricsOf: MetricsFn, draws: Draws) returns (r: Result<seq<ItemRow>>)
    ensures r == Rows(metricsOf, draws)
  {
    ghost var step := StepWith(metricsOf, draws);
    var data: seq<ItemRow> := [];
    var k: nat := 0;
    PrependNothing(Rows(metricsOf, draws));
    for i := 0 to |Materials|
      invariant Prepend(data, RowsFrom(step, i, 0, k)) == Rows(metricsOf, draws)
    {
      var material := GenerateMaterial(metricsOf, draws, i, data, k);
      if material.Err? {
        return Err(material.error);
      }
      data, k := material.value.0, material.value.1;
    }
    PrependDone(step, data, k);
    r := Ok(data);
  }

  /** `load_full_inventory()`: the loops inside a `try` whose handler returns the empty frame. */
  method LoadFullInventory(env: Env) returns (inventory: seq<ItemRow>)
    ensures inventory == FullInventory(env)
  {
    var rows := GenerateRows(MetricsOf(Fallback, env), env.draws);
    if rows.Err? {
      return [];
    }
    inventory := rows.value;
  }

  // ---------------------------------------------------------------------------
  // What the generated inventory looks like
  // ---------------------------------------------------------------------------

  /** The stock rule of SKU j: a fixed share of the reorder point, or a draw above it. */
  predicate StockRule(j: nat, row: ItemRow) {
    var r := row.reorderPoint as real;
    if row.material == "Cement" then row.currentStock == Trunc(r * CementFraction(j))
    else if row.material == "Equipment" then row.currentStock == Trunc(r * EquipmentFraction(j))
    else Trunc(r * 1.2) <= row.currentStock < Trunc(r * 2.5)
  }

  /** Everything the generator guarantees about the row of SKU j of material i. */
  predicate WellFormedRow(metricsOf: MetricsFn, i: nat, j: nat, row: ItemRow)
    requires i < |Materials|
  {
    && row.materialId == MaterialId(i, j)
    && row.material == Materials[i]
    && 20 <= row.avgDailyDemand < 80
    && 15 <= row.leadTimeDays < 45
    && metricsOf(row.avgDailyDemand, row.leadTimeDays) == Ok(Replenishment.Metrics(row.safetyStock, row.reorderPoint))
    && StockRule(j, row)
    && row.status == ItemLabel(ClassifyCriticalFirst(row.currentStock, row.reorderPoint))
    && 50.0 <= row.unitCost <= 500.0
    && (exists n :: 0 <= n < 5 && row.supplier == SupplierName(n))
    && row.serviceLevel == "95%"
  }

  lemma CostBounds(u: Fraction)
    ensures 50.0 <= RoundTo2(Uniform(u, 50.0, 500.0)) <= 500.0
  {
    var x := Uniform(u, 50.0, 500.0);
    RoundHalfEvenBetween(x * 100.0, 5000, 50000);
  }

  lemma SkuWellFormed(metricsOf: MetricsFn, draws: Draws, i: nat, j: nat, k: nat)
    requires i < |Materials|
    requires Sku(metricsOf, draws, i, j, k).Ok?
    ensures WellFormedRow(metricsOf, i, j, Sku(metricsOf, draws, i, j, k).value.0)
  {
    SkuDrawnFields(metricsOf, draws, i, j, k);
    SkuDerivedFields(metricsOf, draws, i, j, k);
  }

  /** The fields of a SKU row drawn from the stream: demand, lead time, unit cost and supplier. */
  lemma SkuDrawnFields(metricsOf: MetricsFn, draws: Draws, i: nat, j: nat, k: nat)
    requires i < |Materials|
    requires Sku(metricsOf, draws, i, j, k).Ok?
    ensures var row := Sku(metricsOf, draws, i, j, k).value.0;
            && 20 <= row.avgDailyDemand < 80
            && 15 <= row.leadTimeDays < 45
            && 50.0 <= row.unitCost <= 500.0
            && (exists n :: 0 <= n < 5 && row.supplier == SupplierName(n))
  {
    var demand := RandInt(draws(k), 20, 80).value;
    var lead := RandInt(draws(k + 1), 15, 45).value;
    var metrics := metricsOf(demand, lead).value;
    var drawn := BiasedStock(Materials[i], j, metrics.reorderPoint, draws, k + 2).value;
    CostBounds(draws(drawn.1));
    var supplier := RandInt(draws(drawn.1 + 1), 0, 5).value;
    var row := Sku(metricsOf, draws, i, j, k).value.0;
    assert row.supplier == SupplierName(supplier);
  }

  /** The fields of a SKU row fixed by its position or computed from the drawn ones. */
  lemma SkuDerivedFields(metricsOf: MetricsFn, draws: Draws, i: nat, j: nat, k: nat)
    requires i < |Materials|
    requires Sku(metricsOf, draws, i, j, k).Ok?
    ensures var row := Sku(metricsOf, draws, i, j, k).value.0;
            && row.materialId == MaterialId(i, j)
            && row.material == Materials[i]
            && metricsOf(row.avgDailyDemand, row.leadTimeDays) == Ok(Replenishment.Metrics(row.safetyStock, row.reorderPoint))
            && StockRule(j, row)
            && row.status == ItemLabel(ClassifyCriticalFirst(row.currentStock, row.reorderPoint))
            && row.serviceLevel == "95%"
  {
    var demand := RandInt(draws(k), 20, 80).value;
    var lead := RandInt(draws(k + 1), 15, 45).value;
    var metrics := metricsOf(demand, lead).value;
    var drawn := BiasedStock(Materials[i], j, metrics.reorderPoint, draws, k + 2).value;
    var row := Sku(metricsOf, draws, i, j, k).value.0;
    assert row.currentStock == drawn.0 && row.reorderPoint == metrics.reorderPoint;
    BiasedStockRule(j, row, draws, k + 2);
  }

  /** A stock drawn for the row's material and reorder point follows the stock rule of SKU j. */
  lemma BiasedStockRule(j: nat, row: ItemRow, draws: Draws, k: nat)
    requires BiasedStock(row.material, j, row.reorderPoint, draws, k).Ok?
    requires row.currentStock == BiasedStock(row.material, j, row.reorderPoint, draws, k).value.0
    ensures StockRule(j, row)
  {
  }

  /** Each of `rows`, standing at position p + m of the loops, satisfies `wf` for SKU (p + m) % 5 of material (p + m) / 5. */
  predicate FitsFrom(wf: (nat, nat, ItemRow) -> bool, p: nat, rows: seq<ItemRow>) {
    forall m :: 0 <= m < |rows| ==> wf((p + m) / 5, (p + m) % 5, rows[m])
  }

  /** If every row a step yields satisfies `wf`, so does every row generated from SKU j of material i on. */
  lemma {:induction false} RowsFromShape(step: Step, wf: (nat, nat, ItemRow) -> bool, i: nat, j: nat, k: nat)
    requires (i < |Materials| && j <= SkusPerMaterial) || (i == |Materials| && j == 0)
    requires forall i': nat, j': nat, k': nat :: i' < |Materials| && j' < SkusPerMaterial && step(i', j', k').Ok?
               ==> wf(i', j', step(i', j', k').value.0)
    requires RowsFrom(step, i, j, k).Ok?
    ensures |RowsFrom(step, i, j, k).value| == ItemCount - (5 * i + j)
    ensures FitsFrom(wf, 5 * i + j, RowsFrom(step, i, j, k).value)
    decreases |Materials| - i, SkusPerMaterial - j, 1
  {
    if i == |Materials| {
    } else if j == SkusPerMaterial {
      NextMaterial(step, i, k);
      RowsFromShape(step, wf, i + 1, 0, k);
    } else {
      RowsFromShapeCons(step, wf, i, j, k);
    }
  }

  /** The step of `RowsFromShape` for one SKU: its row, then the rows after it. */
  lemma {:induction false} RowsFromShapeCons(step: Step, wf: (nat, nat, ItemRow) -> bool, i: nat, j: nat, k: nat)
    requires i < |Materials| && j < SkusPerMaterial
    requires forall i': nat, j': nat, k': nat :: i' < |Materials| && j' < SkusPerMaterial && step(i', j', k').Ok?
               ==> wf(i', j', step(i', j', k').value.0)
    requires RowsFrom(step, i, j, k).Ok?
    ensures |RowsFrom(step, i, j, k).value| == ItemCount - (5 * i + j)
    ensures FitsFrom(wf, 5 * i + j, RowsFrom(step, i, j, k).value)
    decreases |Materials| - i, SkusPerMaterial - j, 0
  {
    RowsFromCons(step, i, j, k);
    var sku := step(i, j, k).value;
    RowsFromShape(step, wf, i, j + 1, sku.1);
    assert (5 * i + j) / 5 == i && (5 * i + j) % 5 == j;
    ShiftShape(wf, 5 * i + j, sku.0, RowsFrom(step, i, j + 1, sku.1).value);
  }

  /** Successful rows from SKU j on are that SKU's row followed by the successful rows after it. */
  lemma RowsFromCons(step: Step, i: nat, j: nat, k: nat)
    requires i < |Materials| && j < SkusPerMaterial
    requires RowsFrom(step, i, j, k).Ok?
    ensures step(i, j, k).Ok? && RowsFrom(step, i, j + 1, step(i, j, k).value.1).Ok?
    ensures RowsFrom(step, i, j, k).value == [step(i, j, k).value.0] + RowsFrom(step, i, j + 1, step(i, j, k).value.1).value
  {
  }

  /** A row that fits position p, followed by rows that fit from position p + 1 on, fits from p on. */
  lemma ShiftShape(wf: (nat, nat, ItemRow) -> bool, p: nat, row: ItemRow, rest: seq<ItemRow>)
    requires wf(p / 5, p % 5, row) && FitsFrom(wf, p + 1, rest)
    ensures FitsFrom(wf, p, [row] + rest)
  {
    var rows := [row] + rest;
    forall m | 1 <= m < |rows|
      ensures wf((p + m) / 5, (p + m) % 5, rows[m])
    {
      assert rows[m] == rest[m - 1];
      assert p + m == p + 1 + (m - 1);
    }
  }

  /** Twenty rows, SKU p % 5 of material p / 5 at position p. */
  lemma RowsShape(metricsOf: MetricsFn, draws: Draws)
    requires Rows(metricsOf, draws).Ok?
    ensures var rows := Rows(metricsOf, draws).value;
            && |rows| == ItemCount
            && forall p :: 0 <= p < |rows| ==> WellFormedRow(metricsOf, p / 5, p % 5, rows[p])
  {
    var step := StepWith(metricsOf, draws);
    var wf := (i: nat, j: nat, row: ItemRow) => i < |Materials| && WellFormedRow(metricsOf, i, j, row);
    forall i: nat, j: nat, k: nat | i < |Materials| && j < SkusPerMaterial && step(i, j, k).Ok?
      ensures wf(i, j, step(i, j, k).value.0)
    {
      StepIsSku(metricsOf, draws, i, j, k);
      SkuWellFormed(metricsOf, draws, i, j, k);
    }
    RowsFromShape(step, wf, 0, 0, 0);
  }

  /** No two generated rows share a `Material_ID`. */
  lemma MaterialIdsUnique(metricsOf: MetricsFn, draws: Draws)
    requires Rows(metricsOf, draws).Ok?
    ensures var rows := Rows(metricsOf, draws).value;
            forall a, b :: 0 <= a < b < |rows| ==> rows[a].materialId != rows[b].materialId
  {
    RowsShape(metricsOf, draws);
    var rows := Rows(metricsOf, draws).value;
    forall a, b | 0 <= a < b < |rows|
      ensures rows[a].materialId != rows[b].materialId
    {
      MaterialIdsDistinct(a / 5, a % 5, b / 5, b % 5);
    }
  }

  /** Equipment stock is at most 0.4 of a positive reorder point, so always Critical. */
  lemma EquipmentRowIsCritical(metricsOf: MetricsFn, i: nat, j: nat, row: ItemRow)
    requires i < |Materials| && WellFormedRow(metricsOf, i, j, row)
    requires row.material == "Equipment" && 0 < row.reorderPoint
    ensures row.status == "Critical"
  {
    var r := row.reorderPoint as real;
    assert r * EquipmentFraction(j) <= r * 0.4;
    assert ClassifyCriticalFirst(row.currentStock, row.reorderPoint) == Critical;
  }

  /** Cement stock is at most 0.7 of a positive reorder point: never In Stock, and Critical for the first SKU. */
  lemma CementRowIsBelowReorder(metricsOf: MetricsFn, i: nat, j: nat, row: ItemRow)
    requires i < |Materials| && WellFormedRow(metricsOf, i, j, row)
    requires row.material == "Cement" && 0 < row.reorderPoint
    ensures row.status != "In Stock"
    ensures j == 0 ==> row.status == "Critical"
  {
    var r := row.reorderPoint as real;
    assert r * CementFraction(j) <= r * 0.7;
    assert ClassifyCriticalFirst(row.currentStock, row.reorderPoint) != InStock;
  }

  /** Steel and Conductors stock is drawn from at least the reorder point, so always In Stock. */
  lemma DrawnRowIsInStock(metricsOf: MetricsFn, i: nat, j: nat, row: ItemRow)
    requires i < |Materials| && WellFormedRow(metricsOf, i, j, row)
    requires row.material == "Steel" || row.material == "Conductors"
    requires 0 <= row.reorderPoint
    ensures row.reorderPoint <= row.currentStock
    ensures row.status == "In Stock"
  {
    var r := row.reorderPoint as real;
    assert row.reorderPoint <= Trunc(r * 1.2);
    assert ClassifyCriticalFirst(row.currentStock, row.reorderPoint) == InStock;
  }

  /** No stock rule yields a negative stock from a non-negative reorder point. */
  lemma StockNonNegative(j: nat, row: ItemRow)
    requires StockRule(j, row) && 0 <= row.reorderPoint
    ensures 0 <= row.currentStock
  {
    var r := row.reorderPoint as real;
    assert 0.0 <= r * CementFraction(j) && 0.0 <= r * EquipmentFraction(j) && 0.0 <= r * 1.2;
  }

  /** Every reorder point the metrics give for the generator's demand and lead-time ranges is at least 300. */
  predicate ReorderAtLeast300(metricsOf: MetricsFn) {
    forall demand: int, lead: int :: 20 <= demand < 80 && 15 <= lead < 45 && metricsOf(demand, lead).Ok?
      ==> 300 <= metricsOf(demand, lead).value.reorderPoint
  }

  /** The metrics never raise on the generator's demand and lead-time ranges. */
  predicate NeverRaises(metricsOf: MetricsFn) {
    forall demand: int, lead: int :: 20 <= demand < 80 && 15 <= lead < 45 ==> metricsOf(demand, lead).Ok?
  }

  /** The quantile and every root the generator may ask for are non-negative (possibly +inf). */
  predicate NonNegativeInputs(env: Env) {
    && IsNonNegative(env.z)
    && forall lead :: 15 <= lead < 45 ==> IsNonNegative(env.sqrtOf(lead))
  }

  /** The same, and finite, as the raising copy needs. */
  predicate FiniteNonNegativeInputs(env: Env) {
    && NonNegativeInputs(env)
    && env.z.Finite?
    && forall lead :: 15 <= lead < 45 ==> env.sqrtOf(lead).Finite?
  }

  lemma ProductAtLeast(a: int, b: int)
    requires 20 <= a && 15 <= b
    ensures 300.0 <= a as real * b as real
  {
    assert 300 <= a * b;
  }

  /** With non-negative inputs every reorder point is at least 20 * 15, the smallest lead-time demand, or the fallback 500. */
  lemma SkuReorderAtLeast300(policy: Policy, env: Env, demand: int, lead: int)
    requires 20 <= demand && 15 <= lead < 45 && NonNegativeInputs(env)
    requires SkuMetrics(policy, env, demand, lead).Ok?
    ensures 300 <= SkuMetrics(policy, env, demand, lead).value.reorderPoint
  {
    var stdDev := demand as real * 0.3;
    var c := Replenishment.Compute(demand as real, lead as real, stdDev, env.z, env.sqrtOf(lead));
    if c.Ok? {
      ComputedReorderAtLeast300(demand, lead, env.z, env.sqrtOf(lead));
    }
  }

  lemma ComputedReorderAtLeast300(demand: int, lead: int, z: Float, sqrtLead: Float)
    requires 20 <= demand && 15 <= lead && IsNonNegative(z) && IsNonNegative(sqrtLead)
    requires Replenishment.Compute(demand as real, lead as real, demand as real * 0.3, z, sqrtLead).Ok?
    ensures 300 <= Replenishment.Compute(demand as real, lead as real, demand as real * 0.3, z, sqrtLead).value.reorderPoint
  {
    var stdDev := demand as real * 0.3;
    Replenishment.SuccessMeansFiniteInputs(demand as real, lead as real, stdDev, z, sqrtLead);
    Replenishment.ReorderCoversLeadDemand(demand as real, lead as real, stdDev, z.value, sqrtLead.value);
    ProductAtLeast(demand, lead);
    assert 300 <= (demand as real * lead as real).Floor;
  }

  lemma PolicyReorderAtLeast300(policy: Policy, env: Env)
    requires NonNegativeInputs(env)
    ensures ReorderAtLeast300(MetricsOf(policy, env))
  {
    forall demand: int, lead: int | 20 <= demand < 80 && 15 <= lead < 45 && MetricsOf(policy, env)(demand, lead).Ok?
      ensures 300 <= MetricsOf(policy, env)(demand, lead).value.reorderPoint
    {
      SkuReorderAtLeast300(policy, env, demand, lead);
    }
  }

  /** The fallback copy never raises; the page's copy does not raise on finite, non-negative inputs. */
  lemma PolicyNeverRaises(policy: Policy, env: Env)
    requires policy == Propagate ==> FiniteNonNegativeInputs(env)
    ensures NeverRaises(MetricsOf(policy, env))
  {
    forall demand: int, lead: int | 20 <= demand < 80 && 15 <= lead < 45
      ensures MetricsOf(policy, env)(demand, lead).Ok?
    {
      if policy == Propagate {
        ProductAtLeast(demand, lead);
        Replenishment.ReorderCoversLeadDemand(demand as real, lead as real, demand as real * 0.3,
                                              env.z.value, env.sqrtOf(lead).value);
      }
    }
  }

  /** A reorder point of at least 1 leaves a non-empty range [int(1.2 r), int(2.5 r)) to draw from. */
  lemma StockRangeNonEmpty(r: int)
    requires 1 <= r
    ensures Trunc(r as real * 1.2) < Trunc(r as real * 2.5)
  {
  }

  /** With metrics that never raise and positive reorder points, no SKU raises. */
  lemma SkuSucceeds(metricsOf: MetricsFn, draws: Draws, i: nat, j: nat, k: nat)
    requires i < |Materials|
    requires NeverRaises(metricsOf) && ReorderAtLeast300(metricsOf)
    ensures Sku(metricsOf, draws, i, j, k).Ok?
  {
    var demand := RandInt(draws(k), 20, 80).value;
    var lead := RandInt(draws(k + 1), 15, 45).value;
    StockRangeNonEmpty(metricsOf(demand, lead).value.reorderPoint);
  }

  /** A step that never fails generates every row. */
  lemma {:induction false} RowsFromSucceed(step: Step, i: nat, j: nat, k: nat)
    requires i <= |Materials| && j <= SkusPerMaterial
    requires forall i': nat, j': nat, k': nat :: i' < |Materials| && j' < SkusPerMaterial ==> step(i', j', k').Ok?
    ensures RowsFrom(step, i, j, k).Ok?
    decreases |Materials| - i, SkusPerMaterial - j
  {
    if i == |Materials| {
    } else if j == SkusPerMaterial {
      NextMaterial(step, i, k);
      RowsFromSucceed(step, i + 1, 0, k);
    } else {
      var sku := step(i, j, k).value;
      PrependStep(step, [], i, j, k, sku.0, sku.1);
      RowsFromSucceed(step, i, j + 1, sku.1);
    }
  }

  /**
   * With metrics that never raise and reorder points of at least 300 the loops
   * yield all twenty rows: Equipment always Critical, Cement never In Stock,
   * Steel and Conductors always In Stock.
   */
  lemma RowsStatuses(metricsOf: MetricsFn, draws: Draws)
    requires NeverRaises(metricsOf) && ReorderAtLeast300(metricsOf)
    ensures Rows(metricsOf, draws).Ok?
    ensures var rows := Rows(metricsOf, draws).value;
            && |rows| == ItemCount
            && forall p :: 0 <= p < |rows| ==>
                 && 300 <= rows[p].reorderPoint
                 && 0 <= rows[p].currentStock
                 && (rows[p].material == "Equipment" ==> rows[p].status == "Critical")
                 && (rows[p].material == "Cement" ==> rows[p].status != "In Stock")
                 && (rows[p].material == "Steel" || rows[p].material == "Conductors" ==>
                       rows[p].status == "In Stock" && rows[p].reorderPoint <= rows[p].currentStock)
  {
    var step := StepWith(metricsOf, draws);
    forall i: nat, j: nat, k: nat | i < |Materials| && j < SkusPerMaterial
      ensures step(i, j, k).Ok?
    {
      StepIsSku(metricsOf, draws, i, j, k);
      SkuSucceeds(metricsOf, draws, i, j, k);
    }
    RowsFromSucceed(step, 0, 0, 0);
    RowsShape(metricsOf, draws);
    var rows := Rows(metricsOf, draws).value;
    forall p | 0 <= p < |rows|
      ensures 300 <= rows[p].reorderPoint
      ensures 0 <= rows[p].currentStock
      ensures rows[p].material == "Equipment" ==> rows[p].status == "Critical"
      ensures rows[p].material == "Cement" ==> rows[p].status != "In Stock"
      ensures rows[p].material == "Steel" || rows[p].material == "Conductors" ==>
                rows[p].status == "In Stock" && rows[p].reorderPoint <= rows[p].currentStock
    {
      var row := rows[p];
      assert WellFormedRow(metricsOf, p / 5, p % 5, row);
      StockNonNegative(p % 5, row);
      if row.material == "Equipment" {
        EquipmentRowIsCritical(metricsOf, p / 5, p % 5, row);
      } else if row.material == "Cement" {
        CementRowIsBelowReorder(metricsOf, p / 5, p % 5, row);
      } else if row.material == "Steel" || row.material == "Conductors" {
        DrawnRowIsInStock(metricsOf, p / 5, p % 5, row);
      }
    }
  }

  /** The generated inventory with non-negative inputs (finite ones for the page's raising copy). */
  lemma GeneratedStatuses(policy: Policy, env: Env)
    requires if policy == Fallback then NonNegativeInputs(env) else FiniteNonNegativeInputs(env)
    ensures Inventory(policy, env).Ok?
    ensures var rows := Inventory(policy, env).value;
            && |rows| == ItemCount
            && forall p :: 0 <= p < |rows| ==>
                 && 300 <= rows[p].reorderPoint
                 && 0 <= rows[p].currentStock
                 && (rows[p].material == "Equipment" ==> rows[p].status == "Critical")
                 && (rows[p].material == "Cement" ==> rows[p].status != "In Stock")
                 && (rows[p].material == "Steel" || rows[p].material == "Conductors" ==>
                       rows[p].status == "In Stock" && rows[p].reorderPoint <= rows[p].currentStock)
  {
    PolicyNeverRaises(policy, env);
    PolicyReorderAtLeast300(policy, env);
    RowsStatuses(MetricsOf(policy, env), env.draws);
  }

  /** Two steps that agree wherever the first succeeds generate the same rows wherever the first succeeds. */
  lemma {:induction false} RowsFromAgree(step: Step, other: Step, i: nat, j: nat, k: nat)
    requires i <= |Materials| && j <= SkusPerMaterial
    requires forall i': nat, j': nat, k': nat :: step(i', j', k').Ok? ==> other(i', j', k') == step(i', j', k')
    requires RowsFrom(step, i, j, k).Ok?
    ensures RowsFrom(other, i, j, k) == RowsFrom(step, i, j, k)
    decreases |Materials| - i, SkusPerMaterial - j
  {
    if i == |Materials| {
    } else if j == SkusPerMaterial {
      NextMaterial(step, i, k);
      NextMaterial(other, i, k);
      RowsFromAgree(step, other, i + 1, 0, k);
    } else {
      var sku := step(i, j, k).value;
      PrependStep(step, [], i, j, k, sku.0, sku.1);
      PrependStep(other, [], i, j, k, sku.0, sku.1);
      RowsFromAgree(step, other, i, j + 1, sku.1);
    }
  }

  lemma SkuAgree(metricsOf: MetricsFn, other: MetricsFn, draws: Draws, i: nat, j: nat, k: nat)
    requires i < |Materials|
    requires forall demand: int, lead: int :: metricsOf(demand, lead).Ok? ==> other(demand, lead) == metricsOf(demand, lead)
    requires Sku(metricsOf, draws, i, j, k).Ok?
    ensures Sku(other, draws, i, j, k) == Sku(metricsOf, draws, i, j, k)
  {
    var demand := RandInt(draws(k), 20, 80).value;
    var lead := RandInt(draws(k + 1), 15, 45).value;
    assert other(demand, lead) == metricsOf(demand, lead);
  }

  /** Where the page's raising copy succeeds, both copies generate the same rows. */
  lemma CopiesAgree(env: Env)
    requires Inventory(Propagate, env).Ok?
    ensures Inventory(Fallback, env) == Inventory(Propagate, env)
  {
    var raising, falling := MetricsOf(Propagate, env), MetricsOf(Fallback, env);
    forall demand: int, lead: int | raising(demand, lead).Ok?
      ensures falling(demand, lead) == raising(demand, lead)
    {
    }
    var step, other := StepWith(raising, env.draws), StepWith(falling, env.draws);
    forall i: nat, j: nat, k: nat | step(i, j, k).Ok?
      ensures other(i, j, k) == step(i, j, k)
    {
      StepIsSku(raising, env.draws, i, j, k);
      StepIsSku(falling, env.draws, i, j, k);
      SkuAgree(raising, falling, env.draws, i, j, k);
    }
    RowsFromAgree(step, other, 0, 0, 0);
  }

  // ---------------------------------------------------------------------------
  // get_dashboard_summary
  // ---------------------------------------------------------------------------

  /** One row of the summary frame: Material, Stock, Reorder_Point, Status. */
  datatype SummaryRow = SummaryRow(material: string, stock: int, reorderPoint: int, status: string)

  /** The inner `calc_status`: In Stock is tested first, then Critical, otherwise Low Stock. */
  function CalcStatus(stock: int, reorder: int): (text: string)
    ensures text == "\U{1F7E2} In Stock" <==> reorder <= stock
    ensures text == "\U{1F534} Critical" <==> stock < reorder && 2 * stock < reorder
    ensures text == "\U{1F7E1} Low Stock" <==> stock < reorder && reorder <= 2 * stock
    ensures 0 <= reorder ==> text == SummaryLabel(ClassifyCriticalFirst(stock, reorder))
  {
    OrderingsAgreeWhenNonNegative(stock, reorder);
    SummaryLabel(ClassifyInStockFirst(stock, reorder))
  }

  lemma OrderingsAgreeWhenNonNegative(stock: int, reorder: int)
    ensures 0 <= reorder ==> ClassifyCriticalFirst(stock, reorder) == ClassifyInStockFirst(stock, reorder)
  {
    if 0 <= reorder {
      OrderingsAgree(stock, reorder);
    }
  }

  /** The `Material` column. */
  function MaterialColumn(items: seq<ItemRow>): (names: seq<string>)
    ensures |names| == |items|
    ensures forall n :: 0 <= n < |items| ==> names[n] == items[n].material
  {
    seq(|items|, n requires 0 <= n < |items| => items[n].material)
  }

  /** The rows of one group, in frame order. */
  function Members(items: seq<ItemRow>, material: string): seq<ItemRow> {
    Filter(items, (row: ItemRow) => row.material == material)
  }

  /** The `'sum'` aggregate of `Current_Stock`. */
  function SumStock(rows: seq<ItemRow>): int {
    if rows == [] then 0 else rows[0].currentStock + SumStock(rows[1..])
  }

  /** The `'max'` aggregate of `Reorder_Point`. */
  function MaxReorder(rows: seq<ItemRow>): (r: int)
    requires rows != []
    ensures forall n :: 0 <= n < |rows| ==> rows[n].reorderPoint <= r
    ensures exists n :: 0 <= n < |rows| && rows[n].reorderPoint == r
  {
    if |rows| == 1 then rows[0].reorderPoint
    else
      var rest := MaxReorder(rows[1..]);
      assert forall n :: 1 <= n < |rows| ==> rows[n] == rows[1..][n - 1];
      if rows[0].reorderPoint >= rest then rows[0].reorderPoint else rest
  }

  /** The running aggregate of one group. */
  datatype Group = Group(stock: int, reorderPoint: int)

  /** Adds one row to its group's running sum and maximum. */
  function Accumulate(row: ItemRow, groups: map<string, Group>): map<string, Group> {
    if row.material in groups then
      var g := groups[row.material];
      groups[row.material := Group(g.stock + row.currentStock,
                                   if row.reorderPoint > g.reorderPoint then row.reorderPoint else g.reorderPoint)]
    else groups[row.material := Group(row.currentStock, row.reorderPoint)]
  }

  /** `groupby('Material').agg({'Current_Stock': 'sum', 'Reorder_Point': 'max'})` before the keys are sorted. */
  function GroupFold(items: seq<ItemRow>): map<string, Group> {
    if items == [] then map[] else Accumulate(items[0], GroupFold(items[1..]))
  }

  /** Peeling the first row off the frame. */
  lemma MembersCons(items: seq<ItemRow>, m: string)
    requires items != []
    ensures Members(items, m)
         == if items[0].material == m then [items[0]] + Members(items[1..], m) else Members(items[1..], m)
  {
  }

  /** Sum and maximum over a group with one more row in front. */
  lemma SumMaxCons(x: ItemRow, rest: seq<ItemRow>)
    ensures SumStock([x] + rest) == x.currentStock + SumStock(rest)
    ensures rest == [] ==> MaxReorder([x] + rest) == x.reorderPoint
    ensures rest != [] ==>
              MaxReorder([x] + rest) == if x.reorderPoint >= MaxReorder(rest) then x.reorderPoint else MaxReorder(rest)
  {
    assert ([x] + rest)[1..] == rest;
  }

  /** The group of `m` in `groups` is the sum and maximum over `rows`, and present exactly when `rows` is non-empty. */
  predicate GroupHolds(groups: map<string, Group>, m: string, rows: seq<ItemRow>) {
    && (m in groups <==> rows != [])
    && (m in groups ==> groups[m] == Group(SumStock(rows), MaxReorder(rows)))
  }

  /** A row of another material leaves the group of `m` as it was. */
  lemma AccumulateOther(x: ItemRow, groups: map<string, Group>, m: string, rows: seq<ItemRow>)
    requires x.material != m && GroupHolds(groups, m, rows)
    ensures GroupHolds(Accumulate(x, groups), m, rows)
  {
    assert m in Accumulate(x, groups) <==> m in groups;
    if m in groups {
      assert Accumulate(x, groups)[m] == groups[m];
    }
  }

  /** A row of material `m` adds its stock to the sum and its reorder point to the maximum. */
  lemma AccumulateSame(x: ItemRow, groups: map<string, Group>, m: string, rows: seq<ItemRow>)
    requires x.material == m && GroupHolds(groups, m, rows)
    ensures GroupHolds(Accumulate(x, groups), m, [x] + rows)
  {
    SumMaxCons(x, rows);
    if rows == [] {
      assert Accumulate(x, groups)[m] == Group(x.currentStock, x.reorderPoint);
    } else {
      var g := groups[m];
      assert Accumulate(x, groups)[m]
          == Group(g.stock + x.currentStock,
                   if x.reorderPoint > g.reorderPoint then x.reorderPoint else g.reorderPoint);
    }
  }

  /** Each group holds exactly the sum and the maximum over its members, and exists exactly when it has some. */
  lemma {:induction false} GroupFoldIsSumAndMax(items: seq<ItemRow>, m: string)
    ensures GroupHolds(GroupFold(items), m, Members(items, m))
  {
    if items != [] {
      var x, t := items[0], items[1..];
      GroupFoldIsSumAndMax(t, m);
      MembersCons(items, m);
      if x.material == m {
        AccumulateSame(x, GroupFold(t), m, Members(t, m));
      } else {
        AccumulateOther(x, GroupFold(t), m, Members(t, m));
      }
    }
  }

  /** Every name in the `Material` column has a non-empty group. */
  lemma GroupsOfColumn(items: seq<ItemRow>, m: string)
    requires m in MaterialColumn(items)
    ensures Members(items, m) != []
    ensures m in GroupFold(items)
    ensures GroupFold(items)[m] == Group(SumStock(Members(items, m)), MaxReorder(Members(items, m)))
  {
    var n :| 0 <= n < |items| && MaterialColumn(items)[n] == m;
    assert items[n] in Members(items, m);
    GroupFoldIsSumAndMax(items, m);
  }

  /** `row` aggregates the non-empty group of its material: summed stock, largest reorder point, `calc_status` of the two. */
  predicate AggregatesGroup(items: seq<ItemRow>, row: SummaryRow) {
    && Members(items, row.material) != []
    && row.stock == SumStock(Members(items, row.material))
    && row.reorderPoint == MaxReorder(Members(items, row.material))
    && row.status == CalcStatus(row.stock, row.reorderPoint)
  }

  /** The summary row built from one key of the grouped frame. */
  function SummaryRowOf(items: seq<ItemRow>, m: string): (row: SummaryRow)
    requires m in MaterialColumn(items)
    ensures row.material == m && AggregatesGroup(items, row)
  {
    GroupsOfColumn(items, m);
    var g := GroupFold(items)[m];
    SummaryRow(m, g.stock, g.reorderPoint, CalcStatus(g.stock, g.reorderPoint))
  }

  /** Every material of the frame is among the sorted keys. */
  lemma KeysCoverItems(items: seq<ItemRow>, n: int)
    requires 0 <= n < |items|
    ensures items[n].material in SortedDistinct(MaterialColumn(items))
  {
    assert MaterialColumn(items)[n] == items[n].material;
  }

  /** One summary row per key, in key order. */
  function SummaryRows(items: seq<ItemRow>, keys: seq<string>): (rows: seq<SummaryRow>)
    requires forall k :: k in keys ==> k in MaterialColumn(items)
    ensures |rows| == |keys|
    ensures forall a :: 0 <= a < |rows| ==> rows[a].material == keys[a] && AggregatesGroup(items, rows[a])
  {
    seq(|keys|, a requires 0 <= a < |keys| => SummaryRowOf(items, keys[a]))
  }

  /**
   * The summary frame: one row per distinct material, in ascending name
   * order, each aggregating the group of its material.
   */
  function Summarize(items: seq<ItemRow>): (summary: seq<SummaryRow>)
    ensures |summary| <= |items|
    ensures items == [] ==> summary == []
    ensures forall a, b :: 0 <= a < b < |summary| ==> LexLess(summary[a].material, summary[b].material)
    ensures forall n :: 0 <= n < |items| ==>
              exists a :: 0 <= a < |summary| && summary[a].material == items[n].material
    ensures forall a :: 0 <= a < |summary| ==> AggregatesGroup(items, summary[a])
  {
    var keys := SortedDistinct(MaterialColumn(items));
    var summary := SummaryRows(items, keys);
    forall n | 0 <= n < |items|
      ensures exists a :: 0 <= a < |summary| && summary[a].material == items[n].material
    {
      KeysCoverItems(items, n);
      var a :| 0 <= a < |keys| && keys[a] == items[n].material;
      assert summary[a].material == items[n].material;
    }
    summary
  }

  /** A frame whose rows all belong to one material has that material as its only key. */
  lemma SingleKey(items: seq<ItemRow>, m: string)
    requires items != []
    requires forall n :: 0 <= n < |items| ==> items[n].material == m
    ensures SortedDistinct(MaterialColumn(items)) == [m]
  {
    var keys := SortedDistinct(MaterialColumn(items));
    KeysCoverItems(items, 0);
    forall a | 0 <= a < |keys| ensures keys[a] == m {
      assert keys[a] in MaterialColumn(items);
    }
    StrictlySortedConstant(keys, m);
  }

  /** A single key gives the single row built from it. */
  lemma SummaryRowsOfOneKey(items: seq<ItemRow>, m: string)
    requires m in MaterialColumn(items)
    ensures SummaryRows(items, [m]) == [SummaryRowOf(items, m)]
  {
  }

  /** A frame whose rows all belong to one material summarises to a single row over all of them. */
  lemma SingleMaterial(items: seq<ItemRow>, m: string)
    requires items != []
    requires forall n :: 0 <= n < |items| ==> items[n].material == m
    ensures Members(items, m) == items
    ensures Summarize(items)
         == [SummaryRow(m, SumStock(items), MaxReorder(items), CalcStatus(SumStock(items), MaxReorder(items)))]
  {
    FilterAll(items, (row: ItemRow) => row.material == m);
    SingleKey(items, m);
    SummaryRowsOfOneKey(items, m);
  }

  /** `get_dashboard_summary()`: the empty frame for an empty inventory, otherwise the aggregate. */
  method GetDashboardSummary(env: Env) returns (summary: seq<SummaryRow>)
    ensures summary == Summarize(FullInventory(env))
  {
    var fullInventory := LoadFullInventory(env);
    if |fullInventory| == 0 {
      return [];
    }
    summary := Summarize(fullInventory);
  }

  /** Members (30, 100) and (40, 120) of one material give (70, 120, Low Stock): 70 is below 120 but not below 60. */
  lemma AggregationExample(a: ItemRow, b: ItemRow)
    requires a.material == b.material
    requires a.currentStock == 30 && a.reorderPoint == 100
    requires b.currentStock == 40 && b.reorderPoint == 120
    ensures Summarize([a, b]) == [SummaryRow(a.material, 70, 120, "\U{1F7E1} Low Stock")]
  {
    SingleMaterial([a, b], a.material);
    SumMaxCons(a, [b]);
    SumMaxCons(b, []);
  }

  /** The summary depends on materials, stocks and reorder points only, never on the members' own statuses. */
  lemma {:induction false} GroupFoldIgnoresStatus(items: seq<ItemRow>, other: seq<ItemRow>)
    requires |items| == |other|
    requires forall n :: 0 <= n < |items| ==>
               && items[n].material == other[n].material
               && items[n].currentStock == other[n].currentStock
               && items[n].reorderPoint == other[n].reorderPoint
    ensures GroupFold(items) == GroupFold(other)
  {
    if items != [] {
      GroupFoldIgnoresStatus(items[1..], other[1..]);
    }
  }

  lemma SummaryIgnoresMemberStatus(items: seq<ItemRow>, other: seq<ItemRow>)
    requires |items| == |other|
    requires forall n :: 0 <= n < |items| ==>
               && items[n].material == other[n].material
               && items[n].currentStock == other[n].currentStock
               && items[n].reorderPoint == other[n].reorderPoint
    ensures Summarize(items) == Summarize(other)
  {
    GroupFoldIgnoresStatus(items, other);
    assert MaterialColumn(items) == MaterialColumn(other);
    SummaryRowsAgree(items, other, SortedDistinct(MaterialColumn(items)));
  }

  lemma SummaryRowsAgree(items: seq<ItemRow>, other: seq<ItemRow>, keys: seq<string>)
    requires MaterialColumn(items) == MaterialColumn(other) && GroupFold(items) == GroupFold(other)
    requires forall k :: k in keys ==> k in MaterialColumn(items)
    ensures SummaryRows(items, keys) == SummaryRows(other, keys)
  {
    forall a | 0 <= a < |keys| ensures SummaryRows(items, keys)[a] == SummaryRows(other, keys)[a] {
      assert keys[a] in MaterialColumn(items);
    }
  }

  /** A group whose every member holds at least its own non-negative reorder point holds at least the largest one in total. */
  lemma {:induction false} CoveredMembersCoverMax(rows: seq<ItemRow>)
    requires rows != []
    requires forall n :: 0 <= n < |rows| ==> 0 <= rows[n].reorderPoint <= rows[n].currentStock
    ensures MaxReorder(rows) <= SumStock(rows)
  {
    if |rows| > 1 {
      CoveredMembersCoverMax(rows[1..]);
    }
  }

  /** A material whose every row holds at least its own non-negative reorder point is In Stock in the summary. */
  lemma CoveredGroupInStock(items: seq<ItemRow>, m: string)
    requires forall n :: 0 <= n < |items| && items[n].material == m ==>
               0 <= items[n].reorderPoint <= items[n].currentStock
    ensures forall a :: 0 <= a < |Summarize(items)| && Summarize(items)[a].material == m ==>
              Summarize(items)[a].status == "\U{1F7E2} In Stock"
  {
    var summary := Summarize(items);
    forall a | 0 <= a < |summary| && summary[a].material == m
      ensures summary[a].status == "\U{1F7E2} In Stock"
    {
      var members := Members(items, m);
      forall k | 0 <= k < |members|
        ensures 0 <= members[k].reorderPoint <= members[k].currentStock
      {
        assert members[k] in items;
      }
      CoveredMembersCoverMax(members);
    }
  }

  /** On a generated inventory the Steel and Conductors totals are always In Stock. */
  lemma GeneratedSummaryInStock(env: Env)
    requires NonNegativeInputs(env)
    ensures forall a :: 0 <= a < |Summarize(FullInventory(env))| &&
                        Summarize(FullInventory(env))[a].material in {"Steel", "Conductors"} ==>
              Summarize(FullInventory(env))[a].status == "\U{1F7E2} In Stock"
  {
    GeneratedStatuses(Fallback, env);
    var rows := FullInventory(env);
    CoveredGroupInStock(rows, "Steel");
    CoveredGroupInStock(rows, "Conductors");
  }

  /**
   * An illustrative Equipment SKU j with reorder point r, built by the
   * generator's stock and status rules. The other fields are fixed values:
   * demand 20 and lead time 15 would not yield r = 1000 at a 95% service
   * level, and the aggregation reads only material, stock and reorder point.
   */
  function EquipmentSku(j: nat, r: int): ItemRow {
    var stock := Trunc(r as real * EquipmentFraction(j));
    ItemRow(MaterialId(3, j), "Equipment", stock, r, 0, 20, 15, 50.0, "Supplier A",
            ItemLabel(ClassifyCriticalFirst(stock, r)), "95%")
  }

  /** With reorder point 1000 the five Equipment stocks are 200, 300, 350, 400 and 250, each below half of it. */
  lemma EquipmentStocksAt1000(j: nat)
    requires j < 5
    ensures EquipmentSku(j, 1000).currentStock == [200, 300, 350, 400, 250][j]
    ensures EquipmentSku(j, 1000).status == "Critical"
  {
    var stock := EquipmentSku(j, 1000).currentStock;
    assert stock == Trunc(1000.0 * EquipmentFraction(j));
    assert ClassifyCriticalFirst(stock, 1000) == Critical;
  }

  /**
   * Every Equipment SKU can be Critical while the Equipment total is In Stock:
   * the stocks sum to 1500, which reaches the largest reorder point 1000.
   */
  lemma EquipmentTotalCanBeInStock()
    ensures forall j: nat :: j < 5 ==> EquipmentSku(j, 1000).status == "Critical"
    ensures Summarize([EquipmentSku(0, 1000), EquipmentSku(1, 1000), EquipmentSku(2, 1000),
                       EquipmentSku(3, 1000), EquipmentSku(4, 1000)])
         == [SummaryRow("Equipment", 1500, 1000, "\U{1F7E2} In Stock")]
  {
    forall j: nat | j < 5 ensures EquipmentSku(j, 1000).status == "Critical" {
      EquipmentStocksAt1000(j);
    }
    EquipmentSummaryAt1000(EquipmentSku(0, 1000), EquipmentSku(1, 1000), EquipmentSku(2, 1000),
                           EquipmentSku(3, 1000), EquipmentSku(4, 1000));
  }

  /** The five Equipment SKUs at reorder point 1000 summarise to one In Stock row of 1500 units. */
  lemma EquipmentSummaryAt1000(e0: ItemRow, e1: ItemRow, e2: ItemRow, e3: ItemRow, e4: ItemRow)
    requires e0 == EquipmentSku(0, 1000) && e1 == EquipmentSku(1, 1000) && e2 == EquipmentSku(2, 1000)
    requires e3 == EquipmentSku(3, 1000) && e4 == EquipmentSku(4, 1000)
    ensures Summarize([e0, e1, e2, e3, e4]) == [SummaryRow("Equipment", 1500, 1000, "\U{1F7E2} In Stock")]
  {
    EquipmentStocksAt1000(0);
    EquipmentStocksAt1000(1);
    EquipmentStocksAt1000(2);
    EquipmentStocksAt1000(3);
    EquipmentStocksAt1000(4);
    SumOfFive(e0, e1, e2, e3, e4);
    UniformAggregate([e0, e1, e2, e3, e4], "Equipment", 1000);
  }

  /** Rows of one material and one reorder point summarise to their stock sum at that reorder point. */
  lemma UniformAggregate(rows: seq<ItemRow>, m: string, r: int)
    requires rows != []
    requires forall n :: 0 <= n < |rows| ==> rows[n].material == m && rows[n].reorderPoint == r
    ensures Summarize(rows) == [SummaryRow(m, SumStock(rows), r, CalcStatus(SumStock(rows), r))]
  {
    SingleMaterial(rows, m);
    var n :| 0 <= n < |rows| && rows[n].reorderPoint == MaxReorder(rows);
  }

  /** The stock sum of five rows. */
  lemma SumOfFive(a: ItemRow, b: ItemRow, c: ItemRow, d: ItemRow, e: ItemRow)
    ensures SumStock([a, b, c, d, e]) == a.currentStock + b.currentStock + c.currentStock + d.currentStock + e.currentStock
  {
    SumStockSnoc([], a);
    assert [] + [a] == [a];
    SumStockSnoc([a], b);
    assert [a] + [b] == [a, b];
    SumStockSnoc([a, b], c);
    assert [a, b] + [c] == [a, b, c];
    SumStockSnoc([a, b, c], d);
    assert [a, b, c] + [d] == [a, b, c, d];
    SumStockSnoc([a, b, c, d], e);
    assert [a, b, c, d] + [e] == [a, b, c, d, e];
  }

  /** Appending a row adds its stock to the sum. */
  lemma {:induction false} SumStockSnoc(rows: seq<ItemRow>, x: ItemRow)
    ensures SumStock(rows + [x]) == SumStock(rows) + x.currentStock
  {
    if rows == [] {
      assert [] + [x] == [x];
    } else {
      SumStockSnoc(rows[1..], x);
      assert (rows + [x])[1..] == rows[1..] + [x];
    }
  }
}

=== FILE: inventory_page.dfy ===
/**
 * pages/3_Inventory_Management.py: the page's own copy of the replenishment
 * calculator (no exception handler, z rounded for display), the economic
 * order quantity, the page's copy of the generator, the status icons, the
 * search-and-filter pipeline and the stock alerts.
 */
module InventoryPage {
  import opened Wrappers
  import opened Floats
  import opened StockStatus
  import opened Text
  import opened Seqs
  import Replenishment
  import opened InventoryData

  // ---------------------------------------------------------------------------
  // calculate_inventory_metrics, the copy without a handler
  // ---------------------------------------------------------------------------

  /** The dictionary the page's calculator returns. */
  datatype PageMetrics = PageMetrics(safetyStock: int, reorderPoint: int, zScore: Float)

  /**
   * `calculate_inventory_metrics(...)` of the page: the same two clamped
   * integers, any exception of `int(...)` propagated, and `round(z_score, 2)`.
   */
  function CalculatePageMetrics(avgDemand: real, leadTime: real, stdDev: real, z: Float, sqrtLead: Float)
    : (r: Result<PageMetrics>)
    ensures r.Ok? ==> 0 <= r.value.safetyStock && 0 <= r.value.reorderPoint
    ensures r.Ok? && z.Finite? ==> r.value.zScore.Finite? && -0.005 <= r.value.zScore.value - z.value <= 0.005
  {
    var metrics :- Replenishment.Compute(avgDemand, leadTime, stdDev, z, sqrtLead);
    Ok(PageMetrics(metrics.safetyStock, metrics.reorderPoint, Round2(z)))
  }

  /**
   * The two copies differ only on failure: where the page's copy succeeds the
   * other returns the same pair, and where it raises the other returns (100, 500).
   */
  lemma CopiesOfTheCalculator(avgDemand: real, leadTime: real, stdDev: real, z: Float, sqrtLead: Float)
    ensures var page := CalculatePageMetrics(avgDemand, leadTime, stdDev, z, sqrtLead);
            var data := InventoryData.CalculateInventoryMetrics(avgDemand, leadTime, stdDev, z, sqrtLead);
            && (page.Ok? ==> data == Replenishment.Metrics(page.value.safetyStock, page.value.reorderPoint))
            && (page.Err? ==> data == FallbackMetrics)
  {
  }

  /** The raising metrics the page's loop uses are the page calculator's first two fields. */
  lemma PageLoopUsesPageMetrics(env: Env, demand: int, lead: int)
    ensures var page := CalculatePageMetrics(demand as real, lead as real, demand as real * 0.3, env.z, env.sqrtOf(lead));
            && (MetricsOf(Propagate, env)(demand, lead).Ok? <==> page.Ok?)
            && (page.Ok? ==> MetricsOf(Propagate, env)(demand, lead).value
                             == Replenishment.Metrics(page.value.safetyStock, page.value.reorderPoint))
  {
  }

  // ---------------------------------------------------------------------------
  // calculate_eoq
  // ---------------------------------------------------------------------------

  /** The integer square root: the largest e with e * e <= n. */
  function IntSqrt(n: nat): (e: nat)
    ensures e * e <= n < (e + 1) * (e + 1)
  {
    if n == 0 then 0
    else
      var r := IntSqrt(n - 1);
      if (r + 1) * (r + 1) <= n then
        assert n < (r + 2) * (r + 2) by {
          assert (r + 2) * (r + 2) == (r + 1) * (r + 1) + 2 * r + 3;
        }
        r + 1
      else r
  }

  /** `int(np.sqrt(q))` for q >= 0, the root taken exactly. */
  function FloorSqrt(q: real): (e: nat)
    requires 0.0 <= q
    ensures (e * e) as real <= q < ((e + 1) * (e + 1)) as real
  {
    IntSqrt(q.Floor)
  }

  /**
   * `calculate_eoq(annual_demand, ordering_cost, unit_cost, holding_rate)`:
   * the holding cost is unit_cost * rate / 100; dividing by a zero holding
   * cost raises ZeroDivisionError, and the root of a negative quotient is
   * NaN, which `int` rejects with ValueError.
   */
  function CalculateEoq(annualDemand: real, orderingCost: real, unitCost: real, holdingRate: real): (r: Result<int>)
    ensures r.Err? <==> unitCost * (holdingRate / 100.0) == 0.0
                        || (2.0 * annualDemand * orderingCost) / (unitCost * (holdingRate / 100.0)) < 0.0
    ensures r.Err? ==> (r.error == ZeroDivisionError <==> unitCost * (holdingRate / 100.0) == 0.0)
    ensures r.Err? && unitCost * (holdingRate / 100.0) != 0.0 ==> r.error == ValueError
    ensures r.Ok? ==> var q := (2.0 * annualDemand * orderingCost) / (unitCost * (holdingRate / 100.0));
                      0 <= r.value && (r.value * r.value) as real <= q < ((r.value + 1) * (r.value + 1)) as real
  {
    var holdingCost := unitCost * (holdingRate / 100.0);
    if holdingCost == 0.0 then Err(ZeroDivisionError)
    else
      var quotient := (2.0 * annualDemand * orderingCost) / holdingCost;
      if quotient < 0.0 then Err(ValueError) else Ok(FloorSqrt(quotient))
  }

  /** More annual demand never lowers the order quantity. */
  lemma EoqMonotoneInDemand(low: real, high: real, orderingCost: real, unitCost: real, holdingRate: real)
    requires 0.0 <= low <= high && 0.0 <= orderingCost
    requires 0.0 < unitCost * (holdingRate / 100.0)
    ensures CalculateEoq(low, orderingCost, unitCost, holdingRate).Ok?
    ensures CalculateEoq(high, orderingCost, unitCost, holdingRate).Ok?
    ensures CalculateEoq(low, orderingCost, unitCost, holdingRate).value
         <= CalculateEoq(high, orderingCost, unitCost, holdingRate).value
  {
    var h := unitCost * (holdingRate / 100.0);
    var qLow, qHigh := (2.0 * low * orderingCost) / h, (2.0 * high * orderingCost) / h;
    assert 2.0 * low * orderingCost <= 2.0 * high * orderingCost by {
      Replenishment.ScaleMonotone(low, high, 2.0 * orderingCost);
    }
    assert 0.0 <= qLow <= qHigh;
    IntSqrtMonotone(qLow.Floor, qHigh.Floor);
  }

  lemma IntSqrtMonotone(m: nat, n: nat)
    requires m <= n
    ensures IntSqrt(m) <= IntSqrt(n)
  {
    SquareMonotone(IntSqrt(n) + 1, IntSqrt(m));
  }

  lemma SquareMonotone(x: nat, y: nat)
    ensures x <= y ==> x * x <= y * y
  {
    if x <= y {
      assert x * x <= x * y <= y * y;
    }
  }

  // ---------------------------------------------------------------------------
  // load_inventory
  // ---------------------------------------------------------------------------

  /**
   * `load_inventory()`: the same seeded loops as `load_full_inventory`, with
   * the page's calculator and no handler, so an exception leaves the page.
   */
  method LoadInventory(env: Env) returns (r: Result<seq<ItemRow>>)
    ensures r == Inventory(Propagate, env)
  {
    r := GenerateRows(MetricsOf(Propagate, env), env.draws);
  }

  /** When the page's generator succeeds it yields exactly the rows of the dashboard's generator. */
  lemma PageInventoryIsFullInventory(env: Env)
    requires Inventory(Propagate, env).Ok?
    ensures FullInventory(env) == Inventory(Propagate, env).value
  {
    CopiesAgree(env);
  }

  /** A row whose status is the Critical-first classification of its own non-negative reorder point. */
  predicate StatusConsistent(row: ItemRow) {
    0 <= row.reorderPoint && row.status == ItemLabel(ClassifyCriticalFirst(row.currentStock, row.reorderPoint))
  }

  /** Every row the page generates is status-consistent. */
  lemma PageRowsConsistent(env: Env)
    requires Inventory(Propagate, env).Ok?
    ensures forall row :: row in Inventory(Propagate, env).value ==> StatusConsistent(row)
  {
    var metricsOf := MetricsOf(Propagate, env);
    RowsShape(metricsOf, env.draws);
    var rows := Inventory(Propagate, env).value;
    forall row | row in rows ensures StatusConsistent(row) {
      var p :| 0 <= p < |rows| && rows[p] == row;
      assert WellFormedRow(metricsOf, p / 5, p % 5, row);
      assert metricsOf(row.avgDailyDemand, row.leadTimeDays).Ok?;
    }
  }

  // ---------------------------------------------------------------------------
  // get_status_icon
  // ---------------------------------------------------------------------------

  /** `icons.get(status, '⚪')` */
  function GetStatusIcon(status: string): (icon: string)
    ensures status == "In Stock" ==> icon == "\U{1F7E2}"
    ensures status == "Low Stock" ==> icon == "\U{1F7E0}"
    ensures status == "Critical" ==> icon == "\U{1F534}"
    ensures icon == "\U{26AA}" <==> status != "In Stock" && status != "Low Stock" && status != "Critical"
  {
    if status == "In Stock" then "\U{1F7E2}"
    else if status == "Low Stock" then "\U{1F7E0}"
    else if status == "Critical" then "\U{1F534}"
    else "\U{26AA}"
  }

  /** Item statuses get three different icons, none of them the fallback. */
  lemma IconsIdentifyStatus(s: Status, t: Status)
    ensures GetStatusIcon(ItemLabel(s)) != "\U{26AA}"
    ensures GetStatusIcon(ItemLabel(s)) == GetStatusIcon(ItemLabel(t)) <==> s == t
  {
  }

  // ---------------------------------------------------------------------------
  // The search and filter pipeline
  // ---------------------------------------------------------------------------

  /** `str.contains(search_term, case=False)` on the ID, read as a plain case-insensitive substring test. */
  predicate MatchesSearch(materialId: string, searchTerm: string) {
    Contains(Lower(materialId), Lower(searchTerm))
  }

  /** The rows the three widgets let through; an empty search term selects every ID. */
  predicate Selected(row: ItemRow, searchTerm: string, materialFilter: seq<string>, statusFilter: seq<string>) {
    && (searchTerm != [] ==> MatchesSearch(row.materialId, searchTerm))
    && row.material in materialFilter
    && row.status in statusFilter
  }

  function SelectionMask(searchTerm: string, materialFilter: seq<string>, statusFilter: seq<string>): ItemRow -> bool {
    (row: ItemRow) => Selected(row, searchTerm, materialFilter, statusFilter)
  }

  function SearchMask(searchTerm: string): ItemRow -> bool {
    (row: ItemRow) => MatchesSearch(row.materialId, searchTerm)
  }

  function MaterialMask(materialFilter: seq<string>): ItemRow -> bool {
    (row: ItemRow) => row.material in materialFilter
  }

  function StatusMask(statusFilter: seq<string>): ItemRow -> bool {
    (row: ItemRow) => row.status in statusFilter
  }

  /**
   * The page's filter steps: the search (only for a non-empty term), then
   * the material multiselect, then the status multiselect. The result is the
   * order-preserving selection of the rows that pass all three.
   */
  method ApplyFilters(inventory: seq<ItemRow>, searchTerm: string, materialFilter: seq<string>, statusFilter: seq<string>)
    returns (filtered: seq<ItemRow>)
    ensures filtered == Filter(inventory, SelectionMask(searchTerm, materialFilter, statusFilter))
    ensures IsSubseq(filtered, inventory)
    ensures forall n :: 0 <= n < |filtered| ==> Selected(filtered[n], searchTerm, materialFilter, statusFilter)
    ensures forall n :: 0 <= n < |inventory| && Selected(inventory[n], searchTerm, materialFilter, statusFilter)
              ==> inventory[n] in filtered
  {
    var selected := SelectionMask(searchTerm, materialFilter, statusFilter);
    var byMaterial, byStatus := MaterialMask(materialFilter), StatusMask(statusFilter);
    filtered := inventory;
    if searchTerm != [] {
      filtered := Filter(filtered, SearchMask(searchTerm));
    }
    filtered := Filter(filtered, byMaterial);
    filtered := Filter(filtered, byStatus);
    if searchTerm != [] {
      var search := SearchMask(searchTerm);
      var searchAndMaterial := (row: ItemRow) => search(row) && byMaterial(row);
      FilterFilter(inventory, search, byMaterial, searchAndMaterial);
      FilterFilter(inventory, searchAndMaterial, byStatus, selected);
    } else {
      FilterFilter(inventory, byMaterial, byStatus, selected);
    }
  }

  /** With no search term and every material and status ticked, as the page starts, nothing is filtered out. */
  lemma DefaultFiltersKeepEverything(inventory: seq<ItemRow>, materialFilter: seq<string>)
    requires forall n :: 0 <= n < |inventory| ==> inventory[n].material in materialFilter
    requires forall n :: 0 <= n < |inventory| ==> StatusConsistent(inventory[n])
    ensures Filter(inventory, SelectionMask([], materialFilter, ["In Stock", "Low Stock", "Critical"])) == inventory
  {
    FilterAll(inventory, SelectionMask([], materialFilter, ["In Stock", "Low Stock", "Critical"]));
  }

  // ---------------------------------------------------------------------------
  // Stock alerts
  // ---------------------------------------------------------------------------

  /** `filtered_df[filtered_df['Status'] == 'Critical']` */
  function CriticalItems(filtered: seq<ItemRow>): seq<ItemRow> {
    Filter(filtered, (row: ItemRow) => row.status == "Critical")
  }

  /** `filtered_df[filtered_df['Status'] == 'Low Stock']` */
  function LowStockItems(filtered: seq<ItemRow>): seq<ItemRow> {
    Filter(filtered, (row: ItemRow) => row.status == "Low Stock")
  }

  /** Both alert lists keep the filtered order, and no row is in both. */
  lemma AlertListsDisjoint(filtered: seq<ItemRow>)
    ensures IsSubseq(CriticalItems(filtered), filtered) && IsSubseq(LowStockItems(filtered), filtered)
    ensures forall row :: row in CriticalItems(filtered) ==> row !in LowStockItems(filtered)
    ensures forall n :: 0 <= n < |filtered| && filtered[n].status == "Critical" ==> filtered[n] in CriticalItems(filtered)
    ensures forall n :: 0 <= n < |filtered| && filtered[n].status == "Low Stock" ==> filtered[n] in LowStockItems(filtered)
  {
    var critical, low := CriticalItems(filtered), LowStockItems(filtered);
    forall row | row in critical ensures row.status == "Critical" {
      var a :| 0 <= a < |critical| && critical[a] == row;
    }
    forall row | row in low ensures row.status == "Low Stock" {
      var b :| 0 <= b < |low| && low[b] == row;
    }
  }

  /** One alert line of the first five critical items. */
  datatype CriticalAlert = CriticalAlert(material: string, materialId: string, stock: int, qtyNeeded: int, estCost: real)

  /** The alert line of one critical item: `qty_needed = Reorder_Point - Current_Stock` and its cost. */
  function AlertOf(item: ItemRow): (alert: CriticalAlert)
    ensures alert.material == item.material && alert.materialId == item.materialId
    ensures alert.stock == item.currentStock
    ensures alert.qtyNeeded == item.reorderPoint - item.currentStock
    ensures alert.estCost == alert.qtyNeeded as real * item.unitCost
  {
    var qtyNeeded := item.reorderPoint - item.currentStock;
    CriticalAlert(item.material, item.materialId, item.currentStock, qtyNeeded, qtyNeeded as real * item.unitCost)
  }

  /** The alerts shown for `critical_items.head(5)`. */
  function CriticalAlerts(filtered: seq<ItemRow>): (alerts: seq<CriticalAlert>)
    ensures |alerts| == if |CriticalItems(filtered)| < 5 then |CriticalItems(filtered)| else 5
    ensures forall a :: 0 <= a < |alerts| ==> alerts[a] == AlertOf(CriticalItems(filtered)[a])
  {
    var head := Head(CriticalItems(filtered), 5);
    seq(|head|, a requires 0 <= a < |head| => AlertOf(head[a]))
  }

  /** A status-consistent Critical row is short of its reorder point. */
  lemma CriticalRowNeedsStock(row: ItemRow)
    requires StatusConsistent(row) && row.status == "Critical"
    ensures 0 < AlertOf(row).qtyNeeded
    ensures 0.0 <= row.unitCost ==> 0.0 <= AlertOf(row).estCost
  {
    LabelsAreDistinct(ClassifyCriticalFirst(row.currentStock, row.reorderPoint), Critical);
  }

  /** On the page's own inventory, every alert asks for a positive quantity at a non-negative cost. */
  lemma PageAlertsNeedStock(env: Env, searchTerm: string, materialFilter: seq<string>, statusFilter: seq<string>)
    requires Inventory(Propagate, env).Ok?
    ensures var inventory := Inventory(Propagate, env).value;
            var alerts := CriticalAlerts(Filter(inventory, SelectionMask(searchTerm, materialFilter, statusFilter)));
            forall a :: 0 <= a < |alerts| ==> 0 < alerts[a].qtyNeeded && 0.0 <= alerts[a].estCost
  {
    var inventory := Inventory(Propagate, env).value;
    var filtered := Filter(inventory, SelectionMask(searchTerm, materialFilter, statusFilter));
    var critical := CriticalItems(filtered);
    PageRowsConsistent(env);
    RowsShape(MetricsOf(Propagate, env), env.draws);
    forall a | 0 <= a < |critical|
      ensures 0 < AlertOf(critical[a]).qtyNeeded && 0.0 <= AlertOf(critical[a]).estCost
    {
      var row := critical[a];
      assert row in filtered;
      assert row in inventory;
      var p :| 0 <= p < |inventory| && inventory[p] == row;
      assert WellFormedRow(MetricsOf(Propagate, env), p / 5, p % 5, row);
      CriticalRowNeedsStock(row);
    }
  }
}

=== FILE: procurement.dfy ===
/**
 * pages/4_Procurement_Planning.py: header sanitising, detection of the
 * project-type and state columns, the label maps with their `str(value)`
 * fallback, the two 'All'-or-equal filters, the budget estimate and the
 * capped budget percentage.
 */
module Procurement {
  import opened Wrappers
  import opened Floats
  import opened Text
  import opened Seqs

  // ---------------------------------------------------------------------------
  // Column sanitising
  // ---------------------------------------------------------------------------

  /** `c.strip().replace(" ", "_")` for one header. */
  function SanitizeColumn(c: string): (r: string)
    ensures ' ' !in r
    ensures r != [] ==> !IsSpace(r[0]) && !IsSpace(r[|r| - 1])
    ensures r == [] <==> forall i :: 0 <= i < |c| ==> IsSpace(c[i])
  {
    var stripped := Strip(c);
    var r := ReplaceChar(stripped, ' ', '_');
    assert r != [] ==> r[0] == stripped[0] && r[|r| - 1] == stripped[|stripped| - 1];
    r
  }

  /** The list comprehension over `df.columns`. */
  function SanitizeColumns(columns: seq<string>): (r: seq<string>)
    ensures |r| == |columns|
    ensures forall n :: 0 <= n < |r| ==> r[n] == SanitizeColumn(columns[n])
  {
    seq(|columns|, n requires 0 <= n < |columns| => SanitizeColumn(columns[n]))
  }

  /** Sanitising a sanitised header changes nothing. */
  lemma SanitizeIdempotent(c: string)
    ensures SanitizeColumn(SanitizeColumn(c)) == SanitizeColumn(c)
  {
    var r := SanitizeColumn(c);
    StripUnchanged(r);
    ReplaceAbsent(r, ' ', '_');
  }

  // ---------------------------------------------------------------------------
  // Column detection
  // ---------------------------------------------------------------------------

  /** `str.contains("p1|p2|...")`: some alternative occurs in `s`. */
  predicate MatchesAny(s: string, patterns: seq<string>) {
    exists p :: p in patterns && Contains(s, p)
  }

  /**
   * `df.columns[df.columns.str.lower().str.contains(pattern)][0]`: the
   * position of the first header whose lower-cased name matches, or
   * IndexError when none does.
   */
  function DetectColumn(columns: seq<string>, patterns: seq<string>): (r: Result<nat>)
    ensures r.Ok? <==> exists n :: 0 <= n < |columns| && MatchesAny(Lower(columns[n]), patterns)
    ensures r.Ok? ==> r.value < |columns| && MatchesAny(Lower(columns[r.value]), patterns)
    ensures r.Ok? ==> forall n :: 0 <= n < r.value ==> !MatchesAny(Lower(columns[n]), patterns)
    ensures r.Err? ==> r.error == IndexError
  {
    if columns == [] then Err(IndexError)
    else if MatchesAny(Lower(columns[0]), patterns) then Ok(0)
    else
      var rest := DetectColumn(columns[1..], patterns);
      assert forall n :: 1 <= n < |columns| ==> columns[n] == columns[1..][n - 1];
      match rest
      case Ok(n) => Ok(n + 1)
      case Err(e) => Err(e)
  }

  const ProjectTypePatterns: seq<string> := ["project_ty", "project_type"]
  const StatePatterns: seq<string> := ["state"]

  /** The second alternative adds nothing: every name containing "project_type" contains "project_ty". */
  lemma ProjectTypePatternIsPrefix(s: string)
    ensures MatchesAny(s, ProjectTypePatterns) <==> Contains(s, "project_ty")
  {
    if Contains(s, "project_type") {
      ContainsPrefixOf(s, "project_type", "project_ty");
    }
    assert "project_ty" in ProjectTypePatterns;
  }

  // ---------------------------------------------------------------------------
  // Label maps
  // ---------------------------------------------------------------------------

  /** A CSV cell as pandas holds it. A float keeps the text `str()` prints for it. */
  datatype Cell = Str(s: string) | Int(i: int) | Float(value: real, text: string) | Null

  /** A dictionary key: the maps are keyed by strings and small integers. */
  datatype Key = KStr(s: string) | KInt(i: int)

  /** The key a cell looks up: a float equal to an integer finds that integer's entry, NaN finds nothing. */
  function KeyOf(c: Cell): Option<Key> {
    match c
    case Str(s) => Some(KStr(s))
    case Int(i) => Some(KInt(i))
    case Float(v, _) => if v == v.Floor as real then Some(KInt(v.Floor)) else None
    case Null => None
  }

  /** `str(value)` */
  function PyStr(c: Cell): string {
    match c
    case Str(s) => s
    case Int(i) => IntString(i)
    case Float(_, text) => text
    case Null => "nan"
  }

  const ProjectTypeMap: map<Key, string> := map[
    KStr("Transmissi") := "Transmission Project",
    KStr("Transmission") := "Transmission Project",
    KInt(0) := "Transmission Project",
    KStr("Substation") := "Substation Project",
    KInt(1) := "Substation Project"]

  const StateMap: map<Key, string> := map[
    KStr("Gujarat") := "Gujarat",
    KStr("Maharash") := "Maharashtra",
    KStr("Assam") := "Assam",
    KStr("Tamil Nad") := "Tamil Nadu",
    KStr("Uttar Prad") := "Uttar Pradesh",
    KInt(0) := "Gujarat",
    KInt(1) := "Maharashtra",
    KInt(2) := "Assam",
    KInt(3) := "Tamil Nadu",
    KInt(4) := "Uttar Pradesh"]

  /** `series.map(m).fillna(series.astype(str))` on one cell: the mapped label, otherwise the cell's own text. */
  function MapLabel(m: map<Key, string>, c: Cell): (name: string)
    ensures KeyOf(c).Some? && KeyOf(c).value in m ==> name == m[KeyOf(c).value]
    ensures (KeyOf(c).None? || KeyOf(c).value !in m) ==> name == PyStr(c)
  {
    match KeyOf(c)
    case Some(k) => if k in m then m[k] else PyStr(c)
    case None => PyStr(c)
  }

  /** Every full state name maps to itself, so labelling a labelled state changes nothing. */
  lemma StateLabelIsStable(c: Cell)
    requires !c.Float?
    ensures MapLabel(StateMap, Str(MapLabel(StateMap, c))) == MapLabel(StateMap, c)
  {
    match c
    case Int(i) =>
      var text := IntString(i);
      assert KStr(text) !in StateMap by {
        assert IsDigit(text[0]) || text[0] == '-';
      }
    case _ =>
  }

  /** Project types are labelled the same way: a full project-type name maps to itself. */
  lemma ProjectTypeLabelIsStable(c: Cell)
    requires !c.Float?
    ensures MapLabel(ProjectTypeMap, Str(MapLabel(ProjectTypeMap, c))) == MapLabel(ProjectTypeMap, c)
  {
    match c
    case Int(i) =>
      var text := IntString(i);
      assert KStr(text) !in ProjectTypeMap by {
        assert IsDigit(text[0]) || text[0] == '-';
      }
    case _ =>
  }

  // ---------------------------------------------------------------------------
  // load_data
  // ---------------------------------------------------------------------------

  /** The frame `load_data` returns, reduced to its headers and the two derived label columns. */
  datatype LoadedFrame = LoadedFrame(columns: seq<string>, projectTypeFull: seq<string>, stateFull: seq<string>)

  /** `name` heads two columns, so `df[name]` selects a frame rather than a column. */
  predicate Repeated(columns: seq<string>, name: string) {
    exists a, b :: 0 <= a < b < |columns| && columns[a] == name && columns[b] == name
  }

  /**
   * `load_data()` after the CSV is read: sanitise the headers, detect the
   * project-type and state columns (IndexError if either is missing), label
   * every record's cell in them, then convert `Date` (KeyError when there is
   * no such column, ValueError when there are two). When a detected header
   * names two columns, `df[name]` is a frame and `DataFrame.map` rejects the
   * dict with TypeError; a frame without records skips that call and fails
   * with ValueError when the two-column result is stored in one column.
   */
  function LoadData(columns: seq<string>, records: seq<seq<Cell>>): (r: Result<LoadedFrame>)
    requires forall k :: 0 <= k < |records| ==> |records[k]| == |columns|
    ensures var sanitized := SanitizeColumns(columns);
            DetectColumn(sanitized, ProjectTypePatterns).Err? || DetectColumn(sanitized, StatePatterns).Err? ==>
              r == Err(IndexError)
    ensures var sanitized := SanitizeColumns(columns);
            var projectType, state := DetectColumn(sanitized, ProjectTypePatterns), DetectColumn(sanitized, StatePatterns);
            projectType.Ok? && state.Ok? ==>
              && (r.Err? <==> Repeated(sanitized, sanitized[projectType.value]) || Repeated(sanitized, sanitized[state.value])
                              || "Date" !in sanitized || Repeated(sanitized, "Date"))
              && (r == Err(KeyError) <==> !Repeated(sanitized, sanitized[projectType.value])
                                          && !Repeated(sanitized, sanitized[state.value]) && "Date" !in sanitized)
              && (Repeated(sanitized, sanitized[projectType.value]) || Repeated(sanitized, sanitized[state.value]) ==>
                    r == Err(if records == [] then ValueError else TypeError))
              && (!Repeated(sanitized, sanitized[projectType.value]) && !Repeated(sanitized, sanitized[state.value])
                    && "Date" in sanitized && Repeated(sanitized, "Date")
                  ==> r == Err(ValueError))
              && (r.Err? ==> r.error in {KeyError, ValueError, TypeError})
    ensures r.Ok? ==> var frame := r.value;
                      && frame.columns == SanitizeColumns(columns)
                      && |frame.projectTypeFull| == |records| && |frame.stateFull| == |records|
                      && forall k :: 0 <= k < |records| ==>
                           && frame.projectTypeFull[k]
                              == MapLabel(ProjectTypeMap, records[k][DetectColumn(frame.columns, ProjectTypePatterns).value])
                           && frame.stateFull[k]
                              == MapLabel(StateMap, records[k][DetectColumn(frame.columns, StatePatterns).value])
  {
    var sanitized := SanitizeColumns(columns);
    var projectTypeBase :- DetectColumn(sanitized, ProjectTypePatterns);
    var stateBase :- DetectColumn(sanitized, StatePatterns);
    if Repeated(sanitized, sanitized[projectTypeBase]) || Repeated(sanitized, sanitized[stateBase]) then
      Err(if records == [] then ValueError else TypeError)
    else if "Date" !in sanitized then Err(KeyError)
    else if Repeated(sanitized, "Date") then Err(ValueError)
    else
      Ok(LoadedFrame(sanitized, LabelColumn(ProjectTypeMap, records, projectTypeBase),
                     LabelColumn(StateMap, records, stateBase)))
  }

  /** `df[base].map(lambda x: labels.get(x, str(x)))` over the records' cells in column `base`. */
  function LabelColumn(labels: map<Key, string>, records: seq<seq<Cell>>, base: nat): (column: seq<string>)
    requires forall k :: 0 <= k < |records| ==> base < |records[k]|
    ensures |column| == |records|
    ensures forall k :: 0 <= k < |records| ==> column[k] == MapLabel(labels, records[k][base])
  {
    seq(|records|, k requires 0 <= k < |records| => MapLabel(labels, records[k][base]))
  }

  // ---------------------------------------------------------------------------
  // Filters
  // ---------------------------------------------------------------------------

  /** The fields of a procurement record the filters and the budget read. */
  datatype ProjectRow = ProjectRow(stateFull: string, projectTypeFull: string, quantityProcured: real)

  /** `['All'] + sorted(values.dropna().unique().tolist())`; the labelled columns hold no nulls. */
  function FilterOptions(values: seq<string>): (options: seq<string>)
    ensures |options| >= 1 && options[0] == "All"
    ensures StrictlySorted(options[1..])
    ensures forall v :: v in values <==> v in options[1..]
  {
    ["All"] + SortedDistinct(values)
  }

  /** 'All' keeps every value; any other choice keeps exactly the equal ones. */
  predicate Chosen(selection: string, value: string) {
    selection == "All" || value == selection
  }

  function ChoiceMask(selectedState: string, selectedProject: string): ProjectRow -> bool {
    (row: ProjectRow) => Chosen(selectedState, row.stateFull) && Chosen(selectedProject, row.projectTypeFull)
  }

  /**
   * The page's filter steps: narrow by state unless 'All' is chosen, then by
   * project type unless 'All' is chosen.
   */
  method FilterProcurement(rows: seq<ProjectRow>, selectedState: string, selectedProject: string)
    returns (filtered: seq<ProjectRow>)
    ensures filtered == Filter(rows, ChoiceMask(selectedState, selectedProject))
  {
    var byState := (row: ProjectRow) => row.stateFull == selectedState;
    var byProject := (row: ProjectRow) => row.projectTypeFull == selectedProject;
    var choice := ChoiceMask(selectedState, selectedProject);
    filtered := rows;
    if selectedState != "All" {
      filtered := Filter(filtered, byState);
    }
    if selectedProject != "All" {
      filtered := Filter(filtered, byProject);
    }
    if selectedState != "All" && selectedProject != "All" {
      FilterFilter(rows, byState, byProject, choice);
    } else if selectedState != "All" {
      FilterExt(rows, byState, choice);
    } else if selectedProject != "All" {
      FilterExt(rows, byProject, choice);
    } else {
      FilterAll(rows, choice);
    }
  }

  /** The selection keeps the order, keeps exactly the chosen rows, and with 'All' twice keeps all of them. */
  lemma ChoiceSelection(rows: seq<ProjectRow>, selectedState: string, selectedProject: string)
    ensures var filtered := Filter(rows, ChoiceMask(selectedState, selectedProject));
            && IsSubseq(filtered, rows)
            && (forall n :: 0 <= n < |filtered| ==>
                  Chosen(selectedState, filtered[n].stateFull) && Chosen(selectedProject, filtered[n].projectTypeFull))
            && (forall n :: 0 <= n < |rows| && ChoiceMask(selectedState, selectedProject)(rows[n]) ==> rows[n] in filtered)
    ensures selectedState == "All" && selectedProject == "All" ==> Filter(rows, ChoiceMask(selectedState, selectedProject)) == rows
  {
    if selectedState == "All" && selectedProject == "All" {
      FilterAll(rows, ChoiceMask(selectedState, selectedProject));
    }
  }

  /** The `State_Full` column of the rows. */
  function StateColumn(rows: seq<ProjectRow>): (states: seq<string>)
    ensures |states| == |rows|
    ensures forall n :: 0 <= n < |rows| ==> states[n] == rows[n].stateFull
  {
    seq(|rows|, n requires 0 <= n < |rows| => rows[n].stateFull)
  }

  /** "Active States": `nunique()` of the state column. */
  function ActiveStates(rows: seq<ProjectRow>): (count: nat)
    ensures count == |set n | 0 <= n < |rows| :: rows[n].stateFull|
    ensures count <= |rows|
    ensures rows != [] ==> 1 <= count
  {
    var distinct := SortedDistinct(StateColumn(rows));
    assert rows != [] ==> rows[0].stateFull in distinct;
    StrictlySortedCardinality(distinct);
    assert (set x | x in distinct) == (set n | 0 <= n < |rows| :: rows[n].stateFull) by {
      forall x | x in distinct ensures x in (set n | 0 <= n < |rows| :: rows[n].stateFull) {
        assert x in StateColumn(rows);
      }
      forall n | 0 <= n < |rows| ensures rows[n].stateFull in distinct {
        assert StateColumn(rows)[n] == rows[n].stateFull;
      }
    }
    |distinct|
  }

  /** Once one state is selected, the overview counts at most one active state. */
  lemma SelectedStateIsOnlyActive(rows: seq<ProjectRow>, selectedState: string, selectedProject: string)
    requires selectedState != "All"
    ensures ActiveStates(Filter(rows, ChoiceMask(selectedState, selectedProject))) <= 1
  {
    var filtered := Filter(rows, ChoiceMask(selectedState, selectedProject));
    var distinct := SortedDistinct(StateColumn(filtered));
    forall n | 0 <= n < |distinct|
      ensures distinct[n] == selectedState
    {
      assert distinct[n] in StateColumn(filtered);
    }
    StrictlySortedConstant(distinct, selectedState);
  }

  // ---------------------------------------------------------------------------
  // Budget
  // ---------------------------------------------------------------------------

  /** `filtered_df['Quantity_Procured'].sum()` */
  function TotalQuantity(rows: seq<ProjectRow>): real {
    if rows == [] then 0.0 else rows[0].quantityProcured + TotalQuantity(rows[1..])
  }

  /** `sum * 0.002`, in crore. */
  function EstimatedBudget(rows: seq<ProjectRow>): real {
    TotalQuantity(rows) * 0.002
  }

  /** With non-negative quantities, selecting fewer rows never raises the estimate. */
  lemma {:induction false} EstimateMonotone(sub: seq<ProjectRow>, rows: seq<ProjectRow>)
    requires IsSubseq(sub, rows)
    requires forall n :: 0 <= n < |rows| ==> 0.0 <= rows[n].quantityProcured
    ensures 0.0 <= EstimatedBudget(sub) <= EstimatedBudget(rows)
  {
    TotalMonotone(sub, rows);
  }

  lemma {:induction false} TotalMonotone(sub: seq<ProjectRow>, rows: seq<ProjectRow>)
    requires IsSubseq(sub, rows)
    requires forall n :: 0 <= n < |rows| ==> 0.0 <= rows[n].quantityProcured
    ensures 0.0 <= TotalQuantity(sub) <= TotalQuantity(rows)
    decreases |rows|
  {
    if rows == [] {
    } else if sub != [] && sub[0] == rows[0] && IsSubseq(sub[1..], rows[1..]) {
      TotalMonotone(sub[1..], rows[1..]);
    } else {
      TotalMonotone(sub, rows[1..]);
    }
  }

  /** The planning target of the progress bar. */
  const PlannedBudget: real := 4000.0

  /**
   * `budget_utilized_pct`: `int(est / planned * 100)` when the plan is
   * positive, else 0, then lowered to 100 if above it.
   */
  function BudgetUtilization(estimated: real, planned: real): (pct: int)
    ensures pct <= 100
    ensures planned <= 0.0 ==> pct == 0
    ensures 0.0 < planned && 0.0 <= estimated ==> 0 <= pct
    ensures 0.0 < planned && estimated >= planned ==> pct == 100
    ensures 0.0 < planned && 0.0 <= estimated < planned ==>
              pct as real <= estimated / planned * 100.0 < pct as real + 1.0
    ensures 0.0 < planned && estimated < 0.0 ==>
              pct <= 0 && pct as real - 1.0 < estimated / planned * 100.0 <= pct as real
  {
    if planned <= 0.0 then 0
    else
      RatioBounds(estimated, planned);
      var pct := Trunc((estimated / planned) * 100.0);
      if pct > 100 then 100 else pct
  }

  /** Where the estimate lies against a positive plan decides where the percentage lies against 0 and 100. */
  lemma RatioBounds(estimated: real, planned: real)
    requires 0.0 < planned
    ensures 0.0 <= estimated ==> 0.0 <= estimated / planned * 100.0
    ensures estimated < planned ==> estimated / planned * 100.0 < 100.0
    ensures estimated >= planned ==> estimated / planned * 100.0 >= 100.0
  {
    var q := estimated / planned;
    assert estimated == q * planned;
    if q < 0.0 { assert q * planned < 0.0; }
    if q < 1.0 { assert q * planned < planned; }
    if q >= 1.0 { assert q * planned >= planned; }
  }

  /** A larger estimate never shows a smaller percentage. */
  lemma BudgetUtilizationMonotone(low: real, high: real, planned: real)
    requires low <= high
    ensures BudgetUtilization(low, planned) <= BudgetUtilization(high, planned)
  {
    if planned > 0.0 {
      DivideMonotone(low, high, planned);
      TruncMonotone(low / planned * 100.0, high / planned * 100.0);
    }
  }

  lemma DivideMonotone(a: real, b: real, c: real)
    requires a <= b && 0.0 < c
    ensures a / c * 100.0 <= b / c * 100.0
  {
    assert a / c <= b / c;
  }

  lemma TruncMonotone(x: real, y: real)
    requires x <= y
    ensures Trunc(x) <= Trunc(y)
  {
  }
}

=== FILE: replenishment.dfy ===
/**
 * The replenishment formula shared by both copies of
 * `calculate_inventory_metrics`: safety stock = z * sigma * sqrt(L) and
 * reorder point = d * L + safety stock, each clamped with `max(..., 0)` and
 * converted with `int(...)`. The quantile z = norm.ppf(service_level) and
 * sqrt(L) come from scipy/numpy and are inputs here, so they may be NaN or
 * infinite; `int` of such a value raises, which is the exception path.
 */
module Replenishment {
  import opened Wrappers
  import opened Floats

  datatype Metrics = Metrics(safetyStock: int, reorderPoint: int)

  /** The unclamped safety stock, `z_score * demand_std_dev * np.sqrt(lead_time_days)`. */
  function SafetyStockValue(stdDev: real, z: Float, sqrtLead: Float): Float {
    Mul(Mul(z, Finite(stdDev)), sqrtLead)
  }

  /** Both integers, or the exception `int(...)` raised. */
  function Compute(avgDemand: real, leadTime: real, stdDev: real, z: Float, sqrtLead: Float): (r: Result<Metrics>)
    ensures r.Ok? ==> 0 <= r.value.safetyStock && 0 <= r.value.reorderPoint
  {
    var safety := SafetyStockValue(stdDev, z, sqrtLead);
    var reorder := Add(Finite(avgDemand * leadTime), safety);
    var safetyStock :- ToInt(MaxZero(safety));
    var reorderPoint :- ToInt(MaxZero(reorder));
    Ok(Metrics(safetyStock, reorderPoint))
  }

  function ClampZero(x: real): (r: real)
    ensures 0.0 <= r && x <= r
  {
    if x < 0.0 then 0.0 else x
  }

  /** With a finite quantile and root the result is the textbook formula over the reals, clamped and floored. */
  lemma ComputeFinite(avgDemand: real, leadTime: real, stdDev: real, z: real, sqrtLead: real)
    ensures Compute(avgDemand, leadTime, stdDev, Finite(z), Finite(sqrtLead))
         == Ok(Metrics(ClampZero(z * stdDev * sqrtLead).Floor,
                       ClampZero(avgDemand * leadTime + z * stdDev * sqrtLead).Floor))
  {
  }

  /** Only a non-finite quantile or root makes the computation raise. */
  lemma FailsOnlyOnNonFinite(avgDemand: real, leadTime: real, stdDev: real, z: Float, sqrtLead: Float)
    requires Compute(avgDemand, leadTime, stdDev, z, sqrtLead).Err?
    ensures !z.Finite? || !sqrtLead.Finite?
  {
  }

  /** A NaN quantile (a service level outside [0, 1]) always ends in ValueError. */
  lemma NaNQuantileRaises(avgDemand: real, leadTime: real, stdDev: real, sqrtLead: Float)
    ensures Compute(avgDemand, leadTime, stdDev, NaN, sqrtLead) == Err(ValueError)
  {
  }

  /** When lead-time demand is non-negative the reorder point is never below the safety stock. */
  lemma ReorderCoversSafety(avgDemand: real, leadTime: real, stdDev: real, z: Float, sqrtLead: Float)
    requires 0.0 <= avgDemand * leadTime
    requires Compute(avgDemand, leadTime, stdDev, z, sqrtLead).Ok?
    ensures Compute(avgDemand, leadTime, stdDev, z, sqrtLead).value.safetyStock
         <= Compute(avgDemand, leadTime, stdDev, z, sqrtLead).value.reorderPoint
  {
    var safety := SafetyStockValue(stdDev, z, sqrtLead);
    var reorder := Add(Finite(avgDemand * leadTime), safety);
    match safety
    case Finite(v) =>
      assert reorder == Finite(avgDemand * leadTime + v);
      if v >= 0.0 {
        assert v <= avgDemand * leadTime + v;
      }
    case NegInf =>
      assert reorder == NegInf;
    case _ =>
  }

  /** With z >= 0 and a fixed lead time, more demand variability never lowers the safety stock. */
  lemma SafetyMonotoneInStdDev(avgDemand: real, leadTime: real, low: real, high: real, z: real, sqrtLead: real)
    requires 0.0 <= z && 0.0 <= sqrtLead && low <= high
    ensures Compute(avgDemand, leadTime, low, Finite(z), Finite(sqrtLead)).Ok?
    ensures Compute(avgDemand, leadTime, high, Finite(z), Finite(sqrtLead)).Ok?
    ensures Compute(avgDemand, leadTime, low, Finite(z), Finite(sqrtLead)).value.safetyStock
         <= Compute(avgDemand, leadTime, high, Finite(z), Finite(sqrtLead)).value.safetyStock
  {
    ComputeFinite(avgDemand, leadTime, low, z, sqrtLead);
    ComputeFinite(avgDemand, leadTime, high, z, sqrtLead);
    SafetyFloorMonotone(low, high, z, sqrtLead);
  }

  lemma SafetyFloorMonotone(low: real, high: real, z: real, sqrtLead: real)
    requires 0.0 <= z && 0.0 <= sqrtLead && low <= high
    ensures ClampZero(z * low * sqrtLead).Floor <= ClampZero(z * high * sqrtLead).Floor
  {
    ScaleMonotone(low, high, z);
    ScaleMonotone(z * low, z * high, sqrtLead);
    FloorMonotone(ClampZero(z * low * sqrtLead), ClampZero(z * high * sqrtLead));
  }

  lemma ScaleMonotone(a: real, b: real, c: real)
    requires a <= b && 0.0 <= c
    ensures c * a <= c * b && a * c <= b * c
  {
  }

  lemma FloorMonotone(x: real, y: real)
    requires x <= y
    ensures x.Floor <= y.Floor
  {
  }

  /** With a non-negative quantile, root and deviation, the reorder point covers the lead-time demand. */
  lemma ReorderCoversLeadDemand(avgDemand: real, leadTime: real, stdDev: real, z: real, sqrtLead: real)
    requires 0.0 <= z && 0.0 <= sqrtLead && 0.0 <= stdDev && 0.0 <= avgDemand * leadTime
    ensures Compute(avgDemand, leadTime, stdDev, Finite(z), Finite(sqrtLead)).Ok?
    ensures (avgDemand * leadTime).Floor
         <= Compute(avgDemand, leadTime, stdDev, Finite(z), Finite(sqrtLead)).value.reorderPoint
  {
    ComputeFinite(avgDemand, leadTime, stdDev, z, sqrtLead);
    assert 0.0 <= z * stdDev;
    assert 0.0 <= z * stdDev * sqrtLead;
  }

  /** With a positive deviation, a non-negative quantile or root that is +inf always raises. */
  lemma SuccessMeansFiniteInputs(avgDemand: real, leadTime: real, stdDev: real, z: Float, sqrtLead: Float)
    requires 0.0 < stdDev && IsNonNegative(z) && IsNonNegative(sqrtLead)
    requires Compute(avgDemand, leadTime, stdDev, z, sqrtLead).Ok?
    ensures z.Finite? && sqrtLead.Finite?
  {
  }
}

=== FILE: seqs.dfy ===
/** Row selection as pandas' boolean indexing does it: keep the rows a mask accepts, in order. */
module Seqs {

  /** `a` is `b` with some elements left out, the rest in their original order. */
  predicate IsSubseq<T(==)>(a: seq<T>, b: seq<T>)
    decreases |b|
  {
    a == [] || (b != [] && ((a[0] == b[0] && IsSubseq(a[1..], b[1..])) || IsSubseq(a, b[1..])))
  }

  /** `df[mask]`: the rows on which `keep` holds, order preserved. */
  function Filter<T(==)>(s: seq<T>, keep: T -> bool): (r: seq<T>)
    ensures |r| <= |s|
    ensures forall i :: 0 <= i < |r| ==> r[i] in s && keep(r[i])
    ensures forall i :: 0 <= i < |s| && keep(s[i]) ==> s[i] in r
    ensures IsSubseq(r, s)
  {
    if s == [] then []
    else if keep(s[0]) then
      var rest := Filter(s[1..], keep);
      assert ([s[0]] + rest)[1..] == rest;
      [s[0]] + rest
    else Filter(s[1..], keep)
  }

  /** Two masks that agree on every row select the same rows. */
  lemma {:induction false} FilterExt<T>(s: seq<T>, p: T -> bool, q: T -> bool)
    requires forall x :: x in s ==> p(x) == q(x)
    ensures Filter(s, p) == Filter(s, q)
  {
    if s != [] {
      FilterExt(s[1..], p, q);
    }
  }

  /** Filtering twice is filtering once by the conjunction of the masks. */
  lemma {:induction false} FilterFilter<T>(s: seq<T>, p: T -> bool, q: T -> bool, both: T -> bool)
    requires forall x :: both(x) == (p(x) && q(x))
    ensures Filter(Filter(s, p), q) == Filter(s, both)
  {
    if s != [] {
      FilterFilter(s[1..], p, q, both);
      if p(s[0]) {
        assert Filter(s, p) == [s[0]] + Filter(s[1..], p);
        assert Filter(s, p)[1..] == Filter(s[1..], p);
      }
    }
  }

  /** A mask that accepts every row changes nothing. */
  lemma {:induction false} FilterAll<T>(s: seq<T>, keep: T -> bool)
    requires forall x :: x in s ==> keep(x)
    ensures Filter(s, keep) == s
  {
    if s != [] {
      assert s == [s[0]] + s[1..];
      FilterAll(s[1..], keep);
    }
  }

  /** `df.head(n)` */
  function Head<T>(s: seq<T>, n: nat): (r: seq<T>)
    ensures |r| == if |s| < n then |s| else n
    ensures forall i :: 0 <= i < |r| ==> r[i] == s[i]
  {
    if |s| <= n then s else s[..n]
  }
}

=== FILE: status.dfy ===
/**
 * The three-way stock status and the two orders in which the code tests it:
 * item rows test Critical first, the material summary and the home page
 * test In Stock first. Both compare against half the reorder point as a float.
 */
module StockStatus {

  datatype Status = InStock | LowStock | Critical

  /** Item-level rule: `stock < reorder * 0.5` is Critical, else `stock < reorder` is Low Stock. */
  function ClassifyCriticalFirst(stock: int, reorder: int): (s: Status)
    ensures s == Critical <==> 2 * stock < reorder
    ensures s == LowStock <==> reorder <= 2 * stock && stock < reorder
    ensures s == InStock <==> reorder <= 2 * stock && reorder <= stock
  {
    if (stock as real) < (reorder as real) * 0.5 then Critical
    else if stock < reorder then LowStock
    else InStock
  }

  /** Summary-level rule: `stock >= reorder` is In Stock, else `stock < reorder * 0.5` is Critical. */
  function ClassifyInStockFirst(stock: int, reorder: int): (s: Status)
    ensures s == InStock <==> reorder <= stock
    ensures s == Critical <==> stock < reorder && 2 * stock < reorder
    ensures s == LowStock <==> stock < reorder && reorder <= 2 * stock
  {
    if stock >= reorder then InStock
    else if (stock as real) < (reorder as real) * 0.5 then Critical
    else LowStock
  }

  /** For a non-negative reorder point the two orders classify every stock level alike. */
  lemma OrderingsAgree(stock: int, reorder: int)
    requires 0 <= reorder
    ensures ClassifyCriticalFirst(stock, reorder) == ClassifyInStockFirst(stock, reorder)
  {
  }

  /** The agreement needs a non-negative reorder point: at (-2, -2) the orders differ. */
  lemma OrderingsDisagreeBelowZero()
    ensures ClassifyCriticalFirst(-2, -2) == Critical
    ensures ClassifyInStockFirst(-2, -2) == InStock
  {
  }

  /** Stock equal to the reorder point is In Stock under both orders, zero over zero included. */
  lemma ReorderBoundaryIsInStock(reorder: int)
    requires 0 <= reorder
    ensures ClassifyCriticalFirst(reorder, reorder) == InStock
    ensures ClassifyInStockFirst(reorder, reorder) == InStock
    ensures ClassifyInStockFirst(0, 0) == InStock
  {
  }

  /** The labels written into item rows (`Status` column of the inventory). */
  function ItemLabel(s: Status): string {
    match s
    case InStock => "In Stock"
    case LowStock => "Low Stock"
    case Critical => "Critical"
  }

  /** The labels of the dashboard summary, each prefixed with a coloured circle. */
  function SummaryLabel(s: Status): string {
    match s
    case InStock => "\U{1F7E2} In Stock"
    case LowStock => "\U{1F7E1} Low Stock"
    case Critical => "\U{1F534} Critical"
  }

  /** Each label names exactly one status, so a row's status can be read back from its label. */
  lemma LabelsAreDistinct(s: Status, t: Status)
    ensures ItemLabel(s) == ItemLabel(t) <==> s == t
    ensures SummaryLabel(s) == SummaryLabel(t) <==> s == t
  {
  }
}

=== FILE: text.dfy ===
/**
 * The string operations the pages rely on: Python's `str.strip`, `replace`,
 * `lower`, substring search, decimal formatting, and `sorted` over distinct
 * strings (code-point order).
 */
module Text {

  /**
   * Python's `str.isspace()`, the test `strip()` uses: the ASCII whitespace,
   * the four ASCII separators, NEL, NO-BREAK SPACE, OGHAM SPACE MARK, the
   * spaces U+2000 to U+200A, the line and paragraph separators, NARROW
   * NO-BREAK SPACE, MEDIUM MATHEMATICAL SPACE and IDEOGRAPHIC SPACE.
   */
  predicate IsSpace(c: char) {
    || c == ' ' || ('\t' <= c <= '\r') || ('\U{1C}' <= c <= '\U{1F}') || c == '\U{85}' || c == '\U{A0}'
    || c == '\U{1680}' || ('\U{2000}' <= c <= '\U{200A}') || c == '\U{2028}' || c == '\U{2029}'
    || c == '\U{202F}' || c == '\U{205F}' || c == '\U{3000}'
  }

  /** `s.lstrip()` */
  function StripLeft(s: string): (r: string)
    ensures |r| <= |s| && r == s[|s| - |r|..]
    ensures forall i :: 0 <= i < |s| - |r| ==> IsSpace(s[i])
    ensures |r| > 0 ==> !IsSpace(r[0])
  {
    if |s| > 0 && IsSpace(s[0]) then StripLeft(s[1..]) else s
  }

  /** `s.rstrip()` */
  function StripRight(s: string): (r: string)
    ensures |r| <= |s| && r == s[..|r|]
    ensures forall i :: |r| <= i < |s| ==> IsSpace(s[i])
    ensures |r| > 0 ==> !IsSpace(r[|r| - 1])
  {
    if |s| > 0 && IsSpace(s[|s| - 1]) then StripRight(s[..|s| - 1]) else s
  }

  /** `s.strip()`: a non-empty result starts and ends with a non-space character. */
  function Strip(s: string): (r: string)
    ensures |r| <= |s|
    ensures |r| > 0 ==> !IsSpace(r[0]) && !IsSpace(r[|r| - 1])
    ensures r == [] <==> forall i :: 0 <= i < |s| ==> IsSpace(s[i])
  {
    var left := StripLeft(s);
    var r := StripRight(left);
    assert |r| > 0 ==> r[0] == left[0];
    assert r == [] ==> left == [];
    r
  }

  /** Stripping a string that starts and ends with a non-space character changes nothing. */
  lemma StripUnchanged(s: string)
    requires s != [] ==> !IsSpace(s[0]) && !IsSpace(s[|s| - 1])
    ensures Strip(s) == s
  {
    assert StripLeft(s) == s;
    assert StripRight(s) == s;
  }

  /** `s.replace(from, to)` for single characters. */
  function ReplaceChar(s: string, from: char, to: char): (r: string)
    ensures |r| == |s|
    ensures forall i :: 0 <= i < |s| ==> r[i] == (if s[i] == from then to else s[i])
    ensures from != to ==> from !in r
  {
    seq(|s|, i requires 0 <= i < |s| => if s[i] == from then to else s[i])
  }

  /** Replacing a character that does not occur changes nothing. */
  lemma ReplaceAbsent(s: string, from: char, to: char)
    requires from !in s
    ensures ReplaceChar(s, from, to) == s
  {
    assert forall i :: 0 <= i < |s| ==> s[i] != from;
  }

  /** `c.lower()` restricted to ASCII letters. */
  function LowerChar(c: char): char {
    if 'A' <= c <= 'Z' then (c as int + 32) as char else c
  }

  function Lower(s: string): (r: string)
    ensures |r| == |s| && forall i :: 0 <= i < |s| ==> r[i] == LowerChar(s[i])
  {
    seq(|s|, i requires 0 <= i < |s| => LowerChar(s[i]))
  }

  predicate IsPrefix(p: string, s: string) {
    |p| <= |s| && s[..|p|] == p
  }

  /** `pat in s`: some suffix of `s` starts with `pat`. */
  predicate Contains(s: string, pat: string)
    decreases |s|
  {
    IsPrefix(pat, s) || (|s| > 0 && Contains(s[1..], pat))
  }

  /** Searching for a longer pattern finds every match of each of its prefixes too. */
  lemma {:induction false} ContainsPrefixOf(s: string, pat: string, prefix: string)
    requires IsPrefix(prefix, pat)
    requires Contains(s, pat)
    ensures Contains(s, prefix)
    decreases |s|
  {
    if IsPrefix(pat, s) {
      assert s[..|prefix|] == s[..|pat|][..|prefix|];
    } else {
      ContainsPrefixOf(s[1..], pat, prefix);
    }
  }

  predicate IsDigit(c: char) { '0' <= c <= '9' }

  function Digit(n: nat): (c: char)
    requires n < 10
    ensures IsDigit(c)
  {
    ('0' as int + n) as char
  }

  /** Different digits print differently. */
  lemma DigitInjective(a: nat, b: nat)
    requires a < 10 && b < 10 && a != b
    ensures Digit(a) != Digit(b)
  {
  }

  /** Two different numbers below 1000 differ in one of their three decimal digits. */
  lemma ThreeDigitsDiffer(m: nat, n: nat)
    requires m < 1000 && n < 1000 && m != n
    ensures m / 100 != n / 100 || m / 10 % 10 != n / 10 % 10 || m % 10 != n % 10
  {
    assert m == 100 * (m / 100) + 10 * (m / 10 % 10) + m % 10;
    assert n == 100 * (n / 100) + 10 * (n / 10 % 10) + n % 10;
  }

  /** `str(n)` for a natural number. */
  function DecimalString(n: nat): (s: string)
    ensures |s| > 0 && forall i :: 0 <= i < |s| ==> IsDigit(s[i])
  {
    if n < 10 then [Digit(n)] else DecimalString(n / 10) + [Digit(n % 10)]
  }

  /** `str(n)` for any integer. */
  function IntString(n: int): (s: string)
    ensures |s| > 0 && (IsDigit(s[0]) || s[0] == '-')
  {
    if n < 0 then "-" + DecimalString(-n) else DecimalString(n)
  }

  /** `f'{n:03d}'`: at least three digits, left-padded with zeros. */
  function Format03d(n: nat): string {
    var s := DecimalString(n);
    if |s| >= 3 then s else seq(3 - |s|, _ => '0') + s
  }

  /** Below 1000 the padded form is exactly the three decimal digits of `n`. */
  lemma Format03dDigits(n: nat)
    requires n < 1000
    ensures Format03d(n) == [Digit(n / 100), Digit(n / 10 % 10), Digit(n % 10)]
  {
    if n < 10 {
    } else if n < 100 {
      assert DecimalString(n) == [Digit(n / 10), Digit(n % 10)];
    } else {
      assert n / 10 / 10 == n / 100;
      assert DecimalString(n / 10) == [Digit(n / 100), Digit(n / 10 % 10)];
    }
  }

  /** Python's `<` on strings: code-point lexicographic order. */
  predicate LexLess(a: string, b: string)
    decreases |a|
  {
    |b| > 0 && (|a| == 0 || a[0] < b[0] || (a[0] == b[0] && LexLess(a[1..], b[1..])))
  }

  lemma {:induction false} LexLessIrreflexive(a: string)
    ensures !LexLess(a, a)
    decreases |a|
  {
    if |a| > 0 {
      LexLessIrreflexive(a[1..]);
    }
  }

  lemma {:induction false} LexLessTransitive(a: string, b: string, c: string)
    requires LexLess(a, b) && LexLess(b, c)
    ensures LexLess(a, c)
    decreases |a|
  {
    if |a| > 0 && a[0] == b[0] && b[0] == c[0] {
      LexLessTransitive(a[1..], b[1..], c[1..]);
    }
  }

  lemma {:induction false} LexLessTotal(a: string, b: string)
    requires a != b
    ensures LexLess(a, b) || LexLess(b, a)
    decreases |a|
  {
    if |a| > 0 && |b| > 0 && a[0] == b[0] {
      assert a == [a[0]] + a[1..] && b == [b[0]] + b[1..];
      LexLessTotal(a[1..], b[1..]);
    }
  }

  predicate StrictlySorted(s: seq<string>) {
    forall i, j :: 0 <= i < j < |s| ==> LexLess(s[i], s[j])
  }

  /** Inserts `x` into a strictly sorted list unless it is already there. */
  function Insert(x: string, s: seq<string>): (r: seq<string>)
    requires StrictlySorted(s)
    ensures StrictlySorted(r)
    ensures forall y :: y in r <==> y == x || y in s
    ensures |r| <= |s| + 1
  {
    if s == [] then [x]
    else if x == s[0] then s
    else if LexLess(x, s[0]) then
      assert forall j :: 0 < j < |s| ==> LexLess(x, s[j]) by {
        forall j | 0 < j < |s| ensures LexLess(x, s[j]) { LexLessTransitive(x, s[0], s[j]); }
      }
      [x] + s
    else
      LexLessTotal(x, s[0]);
      var rest := Insert(x, s[1..]);
      assert forall y :: y in rest ==> LexLess(s[0], y);
      var r := [s[0]] + rest;
      assert forall i, j :: 0 <= i < j < |r| ==> LexLess(r[i], r[j]) by {
        forall i, j | 0 <= i < j < |r| ensures LexLess(r[i], r[j]) {
          if i > 0 { assert r[i] == rest[i - 1] && r[j] == rest[j - 1]; }
          else { assert r[j] in rest; }
        }
      }
      r
  }

  /** `sorted(set(values))`: the distinct values in ascending order. */
  function SortedDistinct(values: seq<string>): (r: seq<string>)
    ensures StrictlySorted(r)
    ensures forall y :: y in r <==> y in values
    ensures |r| <= |values|
  {
    if values == [] then [] else Insert(values[0], SortedDistinct(values[1..]))
  }

  /** A strictly sorted list whose every entry is `x` holds at most one entry. */
  lemma StrictlySortedConstant(s: seq<string>, x: string)
    requires StrictlySorted(s)
    requires forall i :: 0 <= i < |s| ==> s[i] == x
    ensures |s| <= 1
  {
    if |s| > 1 {
      StrictlySortedIsDistinct(s, 0, 1);
      assert false;
    }
  }

  /** A strictly sorted list holds each value once. */
  lemma StrictlySortedIsDistinct(s: seq<string>, i: int, j: int)
    requires StrictlySorted(s)
    requires 0 <= i < |s| && 0 <= j < |s| && i != j
    ensures s[i] != s[j]
  {
    if i < j { LexLessIrreflexive(s[i]); } else { LexLessIrreflexive(s[j]); }
  }

  /** A strictly sorted list has as many entries as it has distinct values. */
  lemma {:induction false} StrictlySortedCardinality(s: seq<string>)
    requires StrictlySorted(s)
    ensures |set x | x in s| == |s|
  {
    if s != [] {
      var rest := s[1..];
      StrictlySortedTail(s);
      StrictlySortedCardinality(rest);
      assert s[0] !in rest by {
        forall k | 0 <= k < |rest| ensures rest[k] != s[0] {
          StrictlySortedIsDistinct(s, 0, k + 1);
        }
      }
      ValuesOfCons(s);
    }
  }

  /** Dropping the head keeps a list strictly sorted. */
  lemma StrictlySortedTail(s: seq<string>)
    requires StrictlySorted(s) && s != []
    ensures StrictlySorted(s[1..])
  {
    var rest := s[1..];
    forall i, j | 0 <= i < j < |rest| ensures LexLess(rest[i], rest[j]) {
      assert rest[i] == s[i + 1] && rest[j] == s[j + 1];
    }
  }

  /** The values of a non-empty list are its head and the values of its tail. */
  lemma ValuesOfCons(s: seq<string>)
    requires s != []
    ensures (set x | x in s) == {s[0]} + (set x | x in s[1..])
  {
    assert s == [s[0]] + s[1..];
  }
}

=== FILE: wrappers.dfy ===
/** Failure-compatible wrappers shared by the model. */
module Wrappers {

  /** The Python exceptions that the modelled code can raise. */
  datatype PyError = ValueError | OverflowError | ZeroDivisionError | IndexError | KeyError | TypeError

  datatype Option<+T> = None | Some(value: T)

  /** A value, or the exception that interrupted its computation. */
  datatype Result<+T> = Ok(value: T) | Err(error: PyError) {
    predicate IsFailure() { Err? }

    function PropagateFailure<U>(): Result<U>
      requires Err?
    {
      Err(error)
    }

    function Extract(): T
      requires Ok?
    {
      value
    }
  }
}
